=== FILE: README.md ===
# Ockham.Test: method lookup by delegate shape, and `Assert.Throws`

This project models the two components of the Ockham.Test unit-testing helpers
and proves properties of them in Dafny 4.11.

**`MethodReflection`** finds a method on a declaring type from the shape of a
delegate type, and binds it into a callable. Tests use it to reach
non-public methods. A lookup runs in this order:

1. It checks that the shape is a delegate type.
2. It takes the name to search for: the one supplied, or else the delegate type's own name.
3. It enumerates the type's public and non-public methods of the requested static or instance kind.
4. It keeps those whose return type and parameter types equal the delegate `Invoke`'s.
5. It takes the first kept method whose name matches ordinally.
6. If there is none and case-insensitivity was asked for, it takes the first that matches ignoring case.
7. Finally, it checks that every by-reference parameter of the delegate agrees with the target on `ref` versus `out`.

Binding closes a static method over nothing and an instance method over the given instance.

**`Assert.Throws<TException>`** runs an action that is expected to throw
`TException` or a type derived from it. It may also match the exception's
message against a regular expression, and hand the exception to a follow-up
check. Every other case raises either one of five failures of the assertion, each with a fully formatted message, or, unchanged, what the follow-up check threw.

Modules, one per file:

| file | module | contents |
|---|---|---|
| `wrappers.dfy` | `Wrappers` | `Option`, `Result` |
| `clr_types.dfy` | `ClrTypes` | types (named, by-reference `T&`, array), parameters with their `out` flag, signatures, methods, declaring types, delegate shapes |
| `clr_exceptions.dfy` | `ClrExceptions` | exception types as a chain of base types, exceptions with message and inner exception, the subtype relation |
| `clr_text.dfy` | `ClrText` | ordinal and ordinal-ignore-case name comparison, decimal rendering of positions |
| `method_reflection.dfy` | `MethodReflection` | the lookup, the binder and the eight public overloads |
| `assert_throws.dfy` | `Assert` | `Throws` and its two overloads |
| `test_class_fixture.dfy` | `TestClassFixture` | the mock `TestClass`, the test delegates, and the lookup tests as lemmas |
| `assert_examples.dfy` | `AssertExamples` | the `Assert.Throws` tests as lemmas |

How the environment is represented:

- **Declaring type.** A declaring type is its name and the methods that a lookup with both public and non-public visibility enumerates, static and instance together, in enumeration order. The lookup keeps those of the requested kind.
- **Delegate shape.** A shape type records whether it is assignable to `System.Delegate`, and the signature of its `Invoke` method when it has one.
- **Exceptions.** An exception is a value. An operation returns `Result<_, Exn>`.
- **Null arguments.** A null reference is `None`.
- **Callables.** A callable for `Assert.Throws` is modelled by how it finishes: returns, or throws a given exception.
- **Runtime.** The regular-expression engine (does a pattern compile, does it match) and the runtime's message text for `ArgumentNullException` are fields of a `Runtime` value. Lemmas state what they assume about it.

## Model

| member | source | states |
|---|---|---|
| ClrTypes.ParamTypes | src/src/MethodReflection.cs:14-17 | the parameter-type array has one entry per parameter, holding that parameter's type, in order |
| MethodReflection.ArraysEqual | src/src/MethodReflection.cs:19-29 | true exactly when both arrays are null, or both are present with equal contents; one null and one present is never equal |
| MethodReflection.ElementsEqualFrom | src/src/MethodReflection.cs:24-28 | the element loop returns true exactly when every position from `i` on agrees |
| MethodReflection.ShapeFilter | src/src/MethodReflection.cs:145-148 | keeps exactly the methods of the requested static/instance kind with the delegate's return and parameter types: everything kept is such a method, every such method is kept |
| MethodReflection.FirstNamed | src/src/MethodReflection.cs:149 | yields a method of the list whose name matches, and yields nothing exactly when no name in the list matches |
| MethodReflection.FirstNamedIsFirst | src/src/MethodReflection.cs:149 | the method yielded is the one at the earliest position whose name matches |
| MethodReflection.Select | src/src/MethodReflection.cs:145-153 | the selected method has the shape and a matching name; without case-insensitivity its name is exactly the wanted one; nothing is selected exactly when no method has both shape and name |
| MethodReflection.FirstNamedIsEarliest | src/src/MethodReflection.cs:146-149 | filtering then taking the first name match yields the earliest method of the whole enumeration with both shape and name |
| MethodReflection.SelectsFirstExact | src/src/MethodReflection.cs:149-153 | when some method matches ordinally, selection returns the earliest such method, whether or not case is ignored |
| MethodReflection.SelectsFirstIgnoringCase | src/src/MethodReflection.cs:150-153 | with no ordinal match, a case-insensitive lookup returns the earliest case-insensitive match when that match agrees on `ref`/`out` |
| MethodReflection.PlainlyDiffersNoMatch | src/src/MethodReflection.cs:146-149 | a method of another kind, return type, arity, parameter type or name length, or (ordinally) another name, never matches |
| MethodReflection.EligibleSameArity | src/src/MethodReflection.cs:147 | passing the shape filter implies the same number of parameters and the same type at every position |
| MethodReflection.FirstKindMismatch | src/src/MethodReflection.cs:164-176 | returns the first position where a by-reference delegate parameter and the target parameter disagree on `out`; nothing exactly when no position disagrees |
| MethodReflection.EffectiveName | src/src/MethodReflection.cs:140 | the searched name is the supplied one, or the delegate type's name when none is supplied |
| MethodReflection.FindMethod | src/src/MethodReflection.cs:135-180 | a non-delegate shape fails with `ArgumentException` "<name> is not a delegate type"; a delegate type without an `Invoke` method fails with `NullReferenceException`; a found method belongs to the declaring type and is of the requested kind; it has the delegate's return type and parameter types; it agrees with the delegate on `ref`/`out` at every by-reference position; its name matches the effective name, exactly unless case is ignored |
| MethodReflection.NameDefaultsToShapeName | src/src/MethodReflection.cs:140 | passing no name gives the same result as passing the delegate type's name |
| MethodReflection.NotDelegateFailsFirst | src/src/MethodReflection.cs:137-138 | with a non-delegate shape, the outcome does not depend on any other argument; it is the "is not a delegate type" error |
| MethodReflection.ResolvesEarliestExact | src/src/MethodReflection.cs:145-179 | when an ordinal match exists and agrees on `ref`/`out`, the lookup returns the earliest ordinal match |
| MethodReflection.RejectsKindMismatch | src/src/MethodReflection.cs:160-177 | when the earliest ordinal match disagrees on `ref`/`out`, the lookup fails with `MissingMethodException`, naming the first disagreeing position and both parameters' names and kinds; it does not move on to a later candidate |
| MethodReflection.RejectsKindMismatchIgnoringCase | src/src/MethodReflection.cs:150-177 | when there is no ordinal match and the earliest case-insensitive match disagrees on `ref`/`out`, the lookup fails at the first disagreeing position; it does not move on to a later candidate |
| MethodReflection.ResolvesEarliestIgnoringCase | src/src/MethodReflection.cs:149-153 | with no ordinal match, a case-insensitive lookup returns the earliest case-insensitive match when that match agrees on `ref`/`out` |
| MethodReflection.NotFoundIffNoMatch | src/src/MethodReflection.cs:145-158 | "No matching method found on target type" is raised exactly when no method has both the shape and a matching name |
| MethodReflection.NoByRefNeverKindMismatch | src/src/MethodReflection.cs:160 | with no by-reference parameter in the delegate, the lookup succeeds exactly when some method has both the shape and a matching name |
| MethodReflection.BindMethod | src/src/MethodReflection.cs:182-194 | a bound static method carries no instance; a bound instance method carries the given instance; the method is the declaring type's and of the requested kind |
| MethodReflection.BindResolvesLikeFind | src/src/MethodReflection.cs:182-194 | binding succeeds exactly when the lookup does, with the same method, and otherwise fails with the lookup's exception |
| MethodReflection.GetMethodInfoOf | src/src/MethodReflection.cs:39-42 | a found method is one of `T`'s, of the requested kind, named exactly like the delegate type, with the delegate's parameter types |
| MethodReflection.GetMethodInfoOn | src/src/MethodReflection.cs:52-55 | a found method belongs to the declaring type, is of the requested kind, and is named exactly like the delegate type |
| MethodReflection.GetMethodInfoNamed | src/src/MethodReflection.cs:65-68 | a found method is of the requested kind; its name matches the given name, exactly unless case is ignored |
| MethodReflection.GetStaticCallerOf | src/src/MethodReflection.cs:78-81 | the bound callable is a static method of `T` named like the delegate type, closed over no instance |
| MethodReflection.GetStaticCallerOn | src/src/MethodReflection.cs:90-93 | the bound callable is a static method named like the delegate type, closed over no instance |
| MethodReflection.GetStaticCallerNamed | src/src/MethodReflection.cs:103-106 | the bound callable is a static method whose name matches the given one, closed over no instance |
| MethodReflection.GetInstanceCaller | src/src/MethodReflection.cs:116-119 | the bound callable is an instance method named like the delegate type, closed over the given instance |
| MethodReflection.GetInstanceCallerNamed | src/src/MethodReflection.cs:130-133 | the bound callable is an instance method whose name matches the given one, closed over the given instance |
| MethodReflection.NamelessInfoUsesShapeName | src/src/MethodReflection.cs:52-68 | the overload without a name behaves as the named overload does when given no name |
| MethodReflection.NamelessStaticCallerUsesShapeName | src/src/MethodReflection.cs:90-106 | the static caller overload without a name behaves as the named overload does when given no name |
| MethodReflection.NamelessInstanceCallerUsesShapeName | src/src/MethodReflection.cs:116-133 | the instance caller overload, which passes a null name, behaves as the named overload given the delegate type's name |
| ClrText.OrdinalImpliesIgnoreCase | src/src/MethodReflection.cs:149-152 | an ordinal name match is also a case-insensitive match, so the fallback can only widen the search |
| ClrText.EqualsIgnoreCaseSymmetric | src/src/MethodReflection.cs:152 | the case-insensitive comparison is symmetric |
| ClrText.NatToString | src/src/MethodReflection.cs:172-173 | a position renders as a non-empty run of decimal digits without a leading zero, whose value is the position |
| ClrExceptions.IsSubtypeReflexive | src/src/Assert.cs:65 | `catch (TException)` catches `TException` itself |
| ClrExceptions.IsSubtypeTransitive | src/src/Assert.cs:65 | a type derived from a type derived from `TException` is caught as `TException` |
| ClrExceptions.IsSubtypeAntisymmetric | src/src/Assert.cs:65-82 | two types each derived from the other are the same type |
| Assert.Throws | src/src/Assert.cs:44-86 | a null action fails with `ArgumentNullException` before anything else; an uncompilable pattern fails with `ArgumentException`, wrapping the compiler's exception, before the action runs; the action runs exactly when both are present and usable; an action that returns fails with "Action did not throw an exception"; an exception of an unrelated type fails naming both types, with the action's exception as inner exception; a message the pattern does not match fails naming message and pattern, with the action's exception as inner exception; otherwise the follow-up check, if any, runs once on the action's exception and decides the outcome |
| Assert.ThrowsReturnsIffPasses | src/src/Assert.cs:44-86 | `Throws` returns normally exactly when the action threw the expected type or a derived one, any pattern compiled and matched, and any follow-up check returned |
| Assert.ThrowsFailureClassified | src/src/Assert.cs:46-85 | every exception out of `Throws` is either one of its five own failures or, unchanged, what the follow-up check threw |
| Assert.ActionExceptionWrappedNotRethrown | src/src/Assert.cs:65-82 | when no follow-up check ran, the action's exception never leaves `Throws` as it is; when the assertion reports it, it is the inner exception of the failure (a follow-up check that rethrows it lets it escape unchanged) |
| Assert.ThrowsMatching | src/src/Assert.cs:19-22 | no follow-up runs; the call passes exactly when the action threw the expected type, and the pattern (if any) compiles and matches |
| Assert.ThrowsAndCheck | src/src/Assert.cs:31-34 | the action runs exactly when it is present; without a pattern, only `ArgumentNullException` or `Exception` can be raised by the assertion itself; the call passes exactly when the action threw the expected type and the check returned |
| TestClassFixture.NoneMatchBelow | src/test/Mocks/TestClass.cs:18-48 | if each of the first `n` methods of `TestClass` plainly differs from the request, none of them matches |
| TestClassFixture.NonDelegateShapeRejected | src/src/MethodReflection.cs:138 | using the class `TestClass` as the shape fails with "TestClass is not a delegate type" |
| TestClassFixture.BareDelegateRejected | src/src/MethodReflection.cs:138-143 | `System.Delegate` as the shape passes the delegate test; it has no `Invoke`, so reading its parameters fails with `NullReferenceException` |
| TestClassFixture.NullDeclaringTypeRejected | src/src/MethodReflection.cs:146 | a null declaring type fails with `NullReferenceException` when the methods are enumerated |
| TestClassFixture.PrivateStaticByInferredName | src/test/MethodReflection.cs:64-76 | the `PrivateStatic` delegate finds the parameterless static `PrivateStatic`, through both inferred-name overloads |
| TestClassFixture.PrivateStaticNotFoundAsInstance | src/test/Mocks/TestClass.cs:24 | the same shape looked up as an instance method is not found |
| TestClassFixture.ProtectedStaticCaseSensitivity | src/test/MethodReflection.cs:47-62 | with the `ProtectedStatic_string` shape, "ProtectedStatic" finds `ProtectedStatic(string)`; "protectedstatic" fails case-sensitively and finds it case-insensitively |
| TestClassFixture.ByValueDoesNotMatchRef | src/test/MethodReflection.cs:98-99 | a by-value `int` shape does not match `ProtectedStatic(ref int)` and finds nothing |
| TestClassFixture.OutShapeRejectedByRefTarget | src/test/MethodReflection.cs:101-102 | an `out int` shape passes the type filter against `ProtectedStatic(ref int)`, then fails the `ref`/`out` check at position 0 |
| TestClassFixture.OutAgainstRefMessage | src/src/MethodReflection.cs:171-173 | the text of that failure: target `intArg` at position 0 is `ref`, delegate `intArg` at position 0 is `out` |
| TestClassFixture.RefShapeMatchesRefTarget | src/test/MethodReflection.cs:104-106 | a `ref int` shape finds `ProtectedStatic(ref int)` |
| TestClassFixture.RefShapeRejectedByOutTarget | src/test/MethodReflection.cs:112-113 | an `(int, ref int)` shape reaches `ProtectedStatic(int, out int)` and fails the `ref`/`out` check at position 1 |
| TestClassFixture.RefAgainstOutMessage | src/src/MethodReflection.cs:171-173 | the text of that failure: target `intArgOut` at position 1 is `out`, delegate `intArgOut` at position 1 is `ref` |
| TestClassFixture.OutShapeMatchesOutTarget | src/test/MethodReflection.cs:115-116 | an `(int, out int)` shape finds `ProtectedStatic(int, out int)` |
| TestClassFixture.PrivateInstanceByInferredName | src/test/MethodReflection.cs:146-154 | the `PrivateInstance` delegate finds the parameterless instance `PrivateInstance`, which precedes the inherited `Finalize` of the same shape |
| TestClassFixture.PrivateInstanceWrongCaseRejected | src/test/MethodReflection.cs:165-166 | "privateinstance" with the `PrivateInstance_int` shape fails case-sensitively |
| TestClassFixture.PrivateInstanceIgnoringCase | src/test/MethodReflection.cs:168-170 | "privateinstance" finds `PrivateInstance(int)` case-insensitively |
| TestClassFixture.PrivateStaticIntByExactName | src/test/MethodReflection.cs:83-85 | "PrivateStatic" with the `PrivateStatic_int` shape finds `PrivateStatic(int)` |
| TestClassFixture.PrivateStaticIntWrongCaseRejected | src/test/MethodReflection.cs:87-88 | "privatestatic" fails case-sensitively |
| TestClassFixture.PrivateStaticIntIgnoringCase | src/test/MethodReflection.cs:90-92 | "privatestatic" finds `PrivateStatic(int)` case-insensitively |
| TestClassFixture.ProtectedInstanceIntByExactName | src/test/MethodReflection.cs:134-136 | "ProtectedInstance" with the `ProtectedInstance_int` shape finds `ProtectedInstance(int)` |
| TestClassFixture.ProtectedInstanceIntWrongCaseRejected | src/test/MethodReflection.cs:138-139 | "protectedinstance" fails case-sensitively |
| TestClassFixture.ProtectedInstanceIntIgnoringCase | src/test/MethodReflection.cs:141-143 | "protectedinstance" finds `ProtectedInstance(int)` case-insensitively |
| TestClassFixture.StaticCallerMissesInstanceMethod | src/test/MethodReflection.cs:302-303 | the static caller overload misses the instance method `ProtectedInstance(int)`, both under the test's "protectedinstance" and under the correctly cased name, so the test's failure is not about case |
| TestClassFixture.ProtectedStaticByInferredName | src/test/MethodReflection.cs:33-45 | the inferred name `ProtectedStatic` finds `ProtectedStatic()`, the first of the five overloads of that name, through both inferred-name overloads |
| TestClassFixture.ProtectedStaticCallersByInferredName | src/test/MethodReflection.cs:179-191 | both inferred-name static caller overloads bind `ProtectedStatic()` with no instance |
| TestClassFixture.ProtectedInstanceByInferredName | src/test/MethodReflection.cs:119-127 | the instance lookup with the inferred name `ProtectedInstance` finds `ProtectedInstance()` |
| TestClassFixture.CallerByValueDoesNotMatchRef | src/test/MethodReflection.cs:249-250 | the static caller for a by-value `int` shape finds nothing |
| TestClassFixture.CallerOutShapeRejectedByRefTarget | src/test/MethodReflection.cs:252-253 | the static caller for an `out int` shape fails the `ref`/`out` check against `ProtectedStatic(ref int)` at position 0 |
| TestClassFixture.CallerRefShapeMatchesRefTarget | src/test/MethodReflection.cs:255-257 | the static caller for a `ref int` shape binds `ProtectedStatic(ref int)` with no instance |
| TestClassFixture.CallerRefShapeRejectedByOutTarget | src/test/MethodReflection.cs:267-268 | the static caller for an `(int, ref int)` shape fails the `ref`/`out` check against `ProtectedStatic(int, out int)` at position 1 |
| TestClassFixture.CallerOutShapeMatchesOutTarget | src/test/MethodReflection.cs:270-271 | the static caller for an `(int, out int)` shape binds `ProtectedStatic(int, out int)` with no instance |
| TestClassFixture.StaticCallerBindsNoInstance | src/test/MethodReflection.cs:210-224 | the static caller for `PrivateStatic` binds `PrivateStatic()` with no instance |
| TestClassFixture.InstanceCallerBindsInstance | src/test/MethodReflection.cs:278-288 | the instance caller for `ProtectedInstance` binds `ProtectedInstance()` to the given instance |
| AssertExamples.MatchMessagePattern | src/test/Assert.cs:39-65 | exact type or parent type, with the escaped exact pattern or the loose pattern: all four calls pass |
| AssertExamples.RejectMessagePattern | src/test/Assert.cs:67-96 | a non-matching pattern fails with `ArgumentException` "Exception message '...' did not match expected pattern '...'", for the exact and the parent type |
| AssertExamples.RejectMissingAction | src/test/Assert.cs:98-102 | a null action fails with `ArgumentNullException` for `action` and nothing runs |
| AssertExamples.RejectInvalidRegex | src/test/Assert.cs:104-121 | the pattern `^(` fails with "Error pattern '^(' is not valid regular expressions pattern" before the action runs |
| AssertExamples.RejectWrongExType | src/test/Assert.cs:123-140 | expecting `DivideByZeroException` fails naming `MyArgumentException` and `DivideByZeroException` |
| AssertExamples.RejectNoException | src/test/Assert.cs:142-159 | an action that returns fails with "Action did not throw an exception" |
| AssertExamples.ExecuteTest | src/test/Assert.cs:161-181 | the follow-up check runs once, on the thrown exception with its message, and the call passes |
| AssertExamples.RejectFailedTest | src/test/Assert.cs:183-204 | a follow-up check that throws makes the call fail with that very exception, after the check saw the action's exception |

### `ref` and `out` in the shape filter

- The shape filter compares parameter *types* only (src/src/MethodReflection.cs:147). `ref int` and `out int` are both `Int32&`, so the filter cannot tell them apart. The earliest candidate of the right types whose name matches is selected before the `ref`/`out` check runs (lines 160-177). If that candidate disagrees, the lookup fails, even when a later overload would agree. `RejectsKindMismatch` and `RejectsKindMismatchIgnoringCase` state this.
- The `ref`/`out` check stops at the first disagreeing position (line 171). It accepts exactly when every by-reference position agrees, but its message names only the first disagreement.

## Left out

- Reflection itself is not modelled. Which methods `GetMethods(BindingFlags)` enumerates, and in what order, comes from the runtime; a declaring type is given as that enumeration, with `TestClass`'s listed in declaration order followed by `Object`'s inherited instance methods.
- Type identity is structural: a type is its name plus by-reference and array structure. Generic types, nested types and assembly identity are not distinguished.
- `CreateDelegate` and invoking the bound delegate are not modelled. This covers argument marshalling, `ref`/`out` write-back, and what the target method computes, such as `TestClass.PrivateStatic(int)` repeating a string. A bound callable is the resolved method plus its instance.
- Regular expressions are not modelled: compiling and matching are the `regexError` and `isMatch` fields of `Runtime`. The lemmas about the `Assert.Throws` tests assume what .NET's engine does with the four test patterns.
- The runtime's message for `new ArgumentNullException("action")` is the `nullArgumentMessage` field of `Runtime`, since its wording depends on the runtime and culture.
- The message of a `NullReferenceException` is fixed to the English text "Object reference not set to an instance of an object."; the runtime's text depends on its culture, and no test reads it.
- Case-insensitive comparison folds ASCII letters only. `StringComparison.OrdinalIgnoreCase` also folds non-ASCII letters; every name in the tests is ASCII.
- Exception types are not checked to derive from `System.Exception`: a base chain may end elsewhere, which no CLR exception can do. No lemma relies on it either way.
- Exceptions are values, so object identity, stack traces and `ParamName` are not modelled. `MyArgumentException`'s `ParamName` and `ActualValue` are left out, and the failure of the follow-up check in `RejectFailedTest` is an arbitrary exception.
- The `instance` argument that `GetMethodCaller` hands on to the private `GetMethodInfo` is not modelled, because the lookup never reads it.
- The `ProtectedStatic_params` delegate declared by the tests is not modelled, because no test uses it.

=== FILE: assert_examples.dfy ===
/**
 * The scenarios of the `Assert.Throws` tests, as lemmas about the model. The
 * action under test throws a `MyArgumentException` (derived from
 * `ArgumentException`) with a fixed message; what the tests rely on about the
 * regular-expression engine is stated as `RegexAgrees`.
 */
module AssertExamples {
  import opened Wrappers
  import opened ClrExceptions
  import opened Assert

  const MyArgumentException := ExnType("MyArgumentException", Some(ArgumentException))

  const ExceptionMessage := "This is an argument exception"

  /** The exception `ThrowException` throws. */
  const Thrown := Exn(MyArgumentException, ExceptionMessage, None)

  /** `"^" + Regex.Escape(ExceptionMessage) + "$"`: the escaper escapes each space. */
  const ExactPattern := "^This\\ is\\ an\\ argument\\ exception$"
  const LoosePattern := "(?i:THIS\\s+IS.+ARG)"
  const NotMatchingPattern := "^\\dABC$"
  const BrokenPattern := "^("

  /**
   * What the tests take for granted about the regular-expression engine: the
   * three test patterns compile and `"^("` does not; the exact and the loose
   * pattern match the message and the digit pattern does not.
   */
  predicate RegexAgrees(rt: Runtime)
  {
    && rt.regexError(ExactPattern).None?
    && rt.regexError(LoosePattern).None?
    && rt.regexError(NotMatchingPattern).None?
    && rt.regexError(BrokenPattern).Some?
    && rt.isMatch(ExactPattern, ExceptionMessage)
    && rt.isMatch(LoosePattern, ExceptionMessage)
    && !rt.isMatch(NotMatchingPattern, ExceptionMessage)
  }

  /** The exact type or its parent, with the exact or the loose pattern: all four pass. */
  lemma MatchMessagePattern(rt: Runtime)
    requires RegexAgrees(rt)
    ensures ThrowsMatching(rt, MyArgumentException, Some(Threw(Thrown)), Some(ExactPattern)) == Report(Completed, true, [])
    ensures ThrowsMatching(rt, MyArgumentException, Some(Threw(Thrown)), Some(LoosePattern)) == Report(Completed, true, [])
    ensures ThrowsMatching(rt, ArgumentException, Some(Threw(Thrown)), Some(ExactPattern)) == Report(Completed, true, [])
    ensures ThrowsMatching(rt, ArgumentException, Some(Threw(Thrown)), Some(LoosePattern)) == Report(Completed, true, [])
  {
  }

  /** A message the pattern does not match fails with an `ArgumentException` naming both, for either expected type. */
  lemma RejectMessagePattern(rt: Runtime)
    requires RegexAgrees(rt)
    ensures ThrowsMatching(rt, MyArgumentException, Some(Threw(Thrown)), Some(NotMatchingPattern)).outcome
         == Threw(Exn(ArgumentException, "Exception message '" + ExceptionMessage + "' did not match expected pattern '"
                                         + NotMatchingPattern + "'", Some(Thrown)))
    ensures ThrowsMatching(rt, ArgumentException, Some(Threw(Thrown)), Some(NotMatchingPattern)).outcome
         == Threw(Exn(ArgumentException, "Exception message '" + ExceptionMessage + "' did not match expected pattern '"
                                         + NotMatchingPattern + "'", Some(Thrown)))
  {
  }

  /** A null action is refused with an `ArgumentNullException` for the `action` parameter, whatever the pattern. */
  lemma RejectMissingAction(rt: Runtime)
    ensures ThrowsMatching(rt, Exception, None, Some("")) == Report(Threw(Exn(ArgumentNullException, rt.nullArgumentMessage("action"), None)), false, [])
  {
  }

  /** `"^("` does not compile: the call fails before the action runs and carries the compiler's exception. */
  lemma RejectInvalidRegex(rt: Runtime)
    requires RegexAgrees(rt)
    ensures ThrowsMatching(rt, Exception, Some(Threw(Thrown)), Some(BrokenPattern))
         == Report(Threw(Exn(ArgumentException, "Error pattern '" + BrokenPattern + "' is not valid regular expressions pattern",
                             rt.regexError(BrokenPattern))), false, [])
  {
  }

  /** `MyArgumentException` is no `DivideByZeroException`: the call fails naming both types. */
  lemma RejectWrongExType(rt: Runtime)
    requires RegexAgrees(rt)
    ensures ThrowsMatching(rt, DivideByZeroException, Some(Threw(Thrown)), Some(ExactPattern)).outcome
         == Threw(Exn(Exception, "Action threw exception of type " + "MyArgumentException"
                                 + ", which does not inherit from expected exception type " + "DivideByZeroException", Some(Thrown)))
  {
  }

  /** An action that returns normally fails the assertion, whatever the pattern. */
  lemma RejectNoException(rt: Runtime)
    requires RegexAgrees(rt)
    ensures ThrowsMatching(rt, DivideByZeroException, Some(Completed), Some(ExactPattern)).outcome
         == Threw(Exn(Exception, "Action did not throw an exception", None))
  {
  }

  /** The follow-up check runs once, on the exception the action threw, and the assertion passes. */
  lemma ExecuteTest(rt: Runtime)
    ensures ThrowsAndCheck(rt, MyArgumentException, Some(Threw(Thrown)), Some((ex: Exn) => Completed))
         == Report(Completed, true, [Thrown])
    ensures Thrown.message == ExceptionMessage
  {
  }

  /** A follow-up check that fails makes the assertion fail with the check's own exception, after it saw the action's. */
  lemma RejectFailedTest(rt: Runtime, failure: Exn)
    ensures ThrowsAndCheck(rt, MyArgumentException, Some(Threw(Thrown)), Some((ex: Exn) => Threw(failure)))
         == Report(Threw(failure), true, [Thrown])
  {
  }
}

=== FILE: assert_throws.dfy ===
/**
 * `Assert.Throws<TException>`: run an action that is expected to throw
 * `TException` (or a type derived from it), optionally check the exception's
 * message against a regular expression, and optionally hand the exception to
 * a follow-up check.
 *
 * Callables are modelled by how they finish; the regular-expression engine and
 * the runtime's text for a null-argument exception are supplied as a
 * `Runtime` value.
 */
module Assert {
  import opened Wrappers
  import opened ClrExceptions

  /** How a callable finished: it returned, or it threw `exn`. */
  datatype Completion = Completed | Threw(exn: Exn)

  /**
   * The runtime facilities the assertion leans on.
   * - `regexError(p)`: the exception `new Regex(p)` throws, `None` when `p` compiles;
   * - `isMatch(p, s)`: whether the compiled `p` matches anywhere in `s` (not anchored);
   * - `nullArgumentMessage(n)`: the `Message` of `new ArgumentNullException(n)`.
   */
  datatype Runtime = Runtime(
    regexError: string -> Option<Exn>,
    isMatch: (string, string) -> bool,
    nullArgumentMessage: string -> string)

  /**
   * What one call does: how it finishes, whether it invoked the action, and the
   * arguments the follow-up check was invoked with, in order.
   */
  datatype Report = Report(outcome: Completion, actionRan: bool, followupCalls: seq<Exn>)

  function NullActionError(rt: Runtime): Exn
  {
    Exn(ArgumentNullException, rt.nullArgumentMessage("action"), None)
  }

  function InvalidPatternError(pattern: string, cause: Option<Exn>): Exn
  {
    Exn(ArgumentException, "Error pattern '" + pattern + "' is not valid regular expressions pattern", cause)
  }

  function MismatchError(ex: Exn, pattern: string): Exn
  {
    Exn(ArgumentException, "Exception message '" + ex.message + "' did not match expected pattern '" + pattern + "'", Some(ex))
  }

  function WrongTypeError(ex: Exn, expected: ExnType): Exn
  {
    Exn(Exception, "Action threw exception of type " + ex.ty.name + ", which does not inherit from expected exception type " + expected.name, Some(ex))
  }

  const NoExceptionError := Exn(Exception, "Action did not throw an exception", None)

  /** The pattern is absent, or present and compilable. */
  predicate PatternUsable(rt: Runtime, errorPattern: Option<string>)
  {
    errorPattern.None? || rt.regexError(errorPattern.value).None?
  }

  /** The three-argument `Throws<TException>(action, errorPattern, exceptionTests)`. */
  function Throws(rt: Runtime, expected: ExnType, action: Option<Completion>, errorPattern: Option<string>,
                  exceptionTests: Option<Exn -> Completion>): (r: Report)
    // a null action is refused before the pattern is compiled or anything runs
    ensures action.None? ==> r == Report(Threw(Exn(ArgumentNullException, rt.nullArgumentMessage("action"), None)), false, [])
    // an uncompilable pattern is refused, wrapping the compiler's exception, before the action runs
    ensures action.Some? && !PatternUsable(rt, errorPattern) ==>
      var p := errorPattern.value;
      r == Report(Threw(Exn(ArgumentException, "Error pattern '" + p + "' is not valid regular expressions pattern", rt.regexError(p))), false, [])
    ensures r.actionRan <==> action.Some? && PatternUsable(rt, errorPattern)
    // the follow-up runs at most once, only on the action's exception, and how it finishes is how the call finishes
    ensures r.followupCalls == []
         || (&& |r.followupCalls| == 1
             && exceptionTests.Some?
             && action == Some(Threw(r.followupCalls[0]))
             && r.outcome == exceptionTests.value(r.followupCalls[0]))
    ensures r.actionRan && action.value.Completed? ==>
      r == Report(Threw(Exn(Exception, "Action did not throw an exception", None)), true, [])
    ensures r.actionRan && action.value.Threw? && !IsSubtype(action.value.exn.ty, expected) ==>
      var ex := action.value.exn;
      r == Report(Threw(Exn(Exception, "Action threw exception of type " + ex.ty.name
                                        + ", which does not inherit from expected exception type " + expected.name, Some(ex))), true, [])
    ensures r.actionRan && action.value.Threw? && IsSubtype(action.value.exn.ty, expected)
            && errorPattern.Some? && !rt.isMatch(errorPattern.value, action.value.exn.message) ==>
      var ex := action.value.exn;
      r == Report(Threw(Exn(ArgumentException, "Exception message '" + ex.message + "' did not match expected pattern '"
                                                 + errorPattern.value + "'", Some(ex))), true, [])
    ensures r.actionRan && action.value.Threw? && IsSubtype(action.value.exn.ty, expected)
            && (errorPattern.None? || rt.isMatch(errorPattern.value, action.value.exn.message)) ==>
      (exceptionTests.None? ==> r == Report(Completed, true, []))
      && (exceptionTests.Some? ==> r.followupCalls == [action.value.exn])
  {
    if action.None? then
      Report(Threw(NullActionError(rt)), false, [])
    else if errorPattern.Some? && rt.regexError(errorPattern.value).Some? then
      Report(Threw(InvalidPatternError(errorPattern.value, rt.regexError(errorPattern.value))), false, [])
    else
      match action.value
      case Completed => Report(Threw(NoExceptionError), true, [])
      case Threw(ex) =>
        if IsSubtype(ex.ty, expected) then
          if errorPattern.Some? && !rt.isMatch(errorPattern.value, ex.message) then
            Report(Threw(MismatchError(ex, errorPattern.value)), true, [])
          else
            match exceptionTests
            case None => Report(Completed, true, [])
            case Some(tests) => Report(tests(ex), true, [ex])
        else
          Report(Threw(WrongTypeError(ex, expected)), true, [])
  }

  /**
   * When the assertion passes, stated without reference to the control flow:
   * the action threw the expected type or a type derived from it, the pattern
   * (if any) compiled and matched the message, and the follow-up (if any)
   * returned normally.
   */
  predicate Passes(rt: Runtime, expected: ExnType, action: Option<Completion>, errorPattern: Option<string>,
                   exceptionTests: Option<Exn -> Completion>)
  {
    && action.Some?
    && action.value.Threw?
    && IsSubtype(action.value.exn.ty, expected)
    && PatternUsable(rt, errorPattern)
    && (errorPattern.None? || rt.isMatch(errorPattern.value, action.value.exn.message))
    && (exceptionTests.None? || exceptionTests.value(action.value.exn).Completed?)
  }

  lemma ThrowsReturnsIffPasses(rt: Runtime, expected: ExnType, action: Option<Completion>, errorPattern: Option<string>,
                               exceptionTests: Option<Exn -> Completion>)
    ensures Throws(rt, expected, action, errorPattern, exceptionTests).outcome.Completed?
        <==> Passes(rt, expected, action, errorPattern, exceptionTests)
  {
  }

  /** An exception the assertion itself raises, as opposed to one a follow-up check raised. */
  predicate OwnFailure(rt: Runtime, expected: ExnType, action: Option<Completion>, errorPattern: Option<string>, e: Exn)
  {
    || e == NullActionError(rt)
    || (errorPattern.Some? && e == InvalidPatternError(errorPattern.value, rt.regexError(errorPattern.value)))
    || e == NoExceptionError
    || (action.Some? && action.value.Threw? && e == MismatchError(action.value.exn, errorPattern.GetOr("")))
    || (action.Some? && action.value.Threw? && e == WrongTypeError(action.value.exn, expected))
  }

  /**
   * Every exception out of `Throws` is either one of the assertion's own five
   * failures or, unchanged, the one the follow-up check threw.
   */
  lemma ThrowsFailureClassified(rt: Runtime, expected: ExnType, action: Option<Completion>, errorPattern: Option<string>,
                                exceptionTests: Option<Exn -> Completion>)
    ensures var r := Throws(rt, expected, action, errorPattern, exceptionTests);
            r.outcome.Threw? ==>
              || (r.followupCalls == [] && OwnFailure(rt, expected, action, errorPattern, r.outcome.exn))
              || (r.followupCalls != [] && Threw(r.outcome.exn) == exceptionTests.value(action.value.exn))
  {
  }

  /**
   * The action's own exception never leaves `Throws` as it is: when it is
   * reported, it is the inner exception of the assertion's failure. (Only the
   * follow-up check can rethrow it.)
   */
  lemma ActionExceptionWrappedNotRethrown(rt: Runtime, expected: ExnType, ex: Exn, errorPattern: Option<string>,
                                          exceptionTests: Option<Exn -> Completion>)
    ensures var r := Throws(rt, expected, Some(Threw(ex)), errorPattern, exceptionTests);
            r.outcome.Threw? && r.followupCalls == [] && r.actionRan ==>
              r.outcome.exn != ex && r.outcome.exn.inner == Some(ex)
  {
  }

  /** `Throws<TException>(action, errorPattern)`: no follow-up check. */
  function ThrowsMatching(rt: Runtime, expected: ExnType, action: Option<Completion>, errorPattern: Option<string>): (r: Report)
    ensures r.followupCalls == []
    ensures r.outcome.Completed? <==>
      && action.Some? && action.value.Threw? && IsSubtype(action.value.exn.ty, expected)
      && (errorPattern.None? || (rt.regexError(errorPattern.value).None? && rt.isMatch(errorPattern.value, action.value.exn.message)))
  {
    Throws(rt, expected, action, errorPattern, None)
  }

  /** `Throws<TException>(action, exceptionTests)`: no pattern, so no message check and no pattern error. */
  function ThrowsAndCheck(rt: Runtime, expected: ExnType, action: Option<Completion>, exceptionTests: Option<Exn -> Completion>): (r: Report)
    ensures r.actionRan <==> action.Some?
    ensures r.followupCalls == [] && r.outcome.Threw? ==> r.outcome.exn.ty in {ArgumentNullException, Exception}
    ensures r.outcome.Completed? <==>
      && action.Some? && action.value.Threw? && IsSubtype(action.value.exn.ty, expected)
      && (exceptionTests.None? || exceptionTests.value(action.value.exn).Completed?)
  {
    Throws(rt, expected, action, None, exceptionTests)
  }
}

=== FILE: clr_exceptions.dfy ===
/**
 * Exception types and exception values. A type carries the chain of its base
 * types, so "is the same type or derives from it" is a well-founded relation
 * that needs no separate parent table.
 */
module ClrExceptions {
  import opened Wrappers

  /**
   * An exception type: its simple name and its base type. Every exception type
   * is assumed to have `Exception` at the end of its base chain; the datatype
   * does not enforce it.
   */
  datatype ExnType = ExnType(name: string, base: Option<ExnType>)

  /** An exception object: runtime type, `Message`, and `InnerException`. */
  datatype Exn = Exn(ty: ExnType, message: string, inner: Option<Exn>)

  /** `sub` is `sup` or derives from it: what a `catch (sup e)` clause accepts. */
  predicate IsSubtype(sub: ExnType, sup: ExnType)
    decreases sub
  {
    sub == sup || (sub.base.Some? && IsSubtype(sub.base.value, sup))
  }

  lemma IsSubtypeReflexive(t: ExnType)
    ensures IsSubtype(t, t)
  {
  }

  /** Deriving is transitive: a handler for `c` catches whatever a handler for `b` would, when `b` derives from `c`. */
  lemma {:induction false} IsSubtypeTransitive(a: ExnType, b: ExnType, c: ExnType)
    requires IsSubtype(a, b) && IsSubtype(b, c)
    ensures IsSubtype(a, c)
    decreases a
  {
    if a != b {
      IsSubtypeTransitive(a.base.value, b, c);
    }
  }

  /** A type never derives from a proper descendant of itself: the relation is antisymmetric. */
  lemma {:induction false} IsSubtypeAntisymmetric(a: ExnType, b: ExnType)
    requires IsSubtype(a, b) && IsSubtype(b, a)
    ensures a == b
  {
    SubtypeNoLarger(a, b);
    SubtypeNoLarger(b, a);
  }

  lemma {:induction false} SubtypeNoLarger(a: ExnType, b: ExnType)
    requires IsSubtype(a, b)
    ensures a == b || Depth(b) < Depth(a)
    decreases a
  {
    if a != b {
      SubtypeNoLarger(a.base.value, b);
    }
  }

  /** Number of types on the base chain, the type itself included. */
  function Depth(t: ExnType): (d: nat)
    ensures d >= 1
    ensures t.base.Some? ==> d == Depth(t.base.value) + 1
  {
    match t.base
    case None => 1
    case Some(b) => Depth(b) + 1
  }

  // The standard exception types this library raises or its tests name.
  const Exception := ExnType("Exception", None)
  const SystemException := ExnType("SystemException", Some(Exception))
  const ArgumentException := ExnType("ArgumentException", Some(SystemException))
  const ArgumentNullException := ExnType("ArgumentNullException", Some(ArgumentException))
  const NullReferenceException := ExnType("NullReferenceException", Some(SystemException))
  const MemberAccessException := ExnType("MemberAccessException", Some(SystemException))
  const MissingMemberException := ExnType("MissingMemberException", Some(MemberAccessException))
  const MissingMethodException := ExnType("MissingMethodException", Some(MissingMemberException))
  const ArithmeticException := ExnType("ArithmeticException", Some(SystemException))
  const DivideByZeroException := ExnType("DivideByZeroException", Some(ArithmeticException))

  /** The message for dereferencing a null reference, fixed to the runtime's English text. */
  const NullReferenceMessage := "Object reference not set to an instance of an object."
}

=== FILE: clr_text.dfy ===
/** The string operations the library relies on: ordinal case-insensitive comparison and decimal formatting. */
module ClrText {

  /** Upper-case folding of one character, restricted to ASCII letters. */
  function UpperAscii(c: char): (u: char)
    ensures 'a' <= c <= 'z' ==> u as int == c as int - 32
    ensures !('a' <= c <= 'z') ==> u == c
  {
    if 'a' <= c <= 'z' then (c as int - 32) as char else c
  }

  /**
   * `String.Equals(a, b, StringComparison.OrdinalIgnoreCase)`: equal length and
   * equal character by character once both are folded to upper case.
   */
  predicate EqualsIgnoreCase(a: string, b: string)
  {
    |a| == |b| && forall i :: 0 <= i < |a| ==> UpperAscii(a[i]) == UpperAscii(b[i])
  }

  /** The name comparison a lookup uses: ordinal, or ordinal ignoring case. */
  predicate NamesMatch(candidate: string, wanted: string, ignoreCase: bool)
  {
    if ignoreCase then EqualsIgnoreCase(candidate, wanted) else candidate == wanted
  }

  /** An ordinal match is also a case-insensitive one, so the fallback never loses an exact match. */
  lemma OrdinalImpliesIgnoreCase(a: string, b: string)
    requires a == b
    ensures EqualsIgnoreCase(a, b)
  {
  }

  lemma EqualsIgnoreCaseSymmetric(a: string, b: string)
    requires EqualsIgnoreCase(a, b)
    ensures EqualsIgnoreCase(b, a)
  {
  }

  /** The decimal digit for `d`. */
  function Digit(d: nat): (c: char)
    requires d < 10
    ensures '0' <= c <= '9'
    ensures c as int - '0' as int == d
  {
    ('0' as int + d) as char
  }

  /** The value of a string of decimal digits. */
  function DecimalValue(s: string): nat
    requires forall i :: 0 <= i < |s| ==> '0' <= s[i] <= '9'
  {
    if |s| == 0 then 0 else DecimalValue(s[..|s| - 1]) * 10 + (s[|s| - 1] as int - '0' as int)
  }

  /** The decimal rendering of a non-negative integer, as string interpolation writes it: every culture renders one as the same ASCII digits. */
  function NatToString(n: nat): (s: string)
    ensures |s| >= 1
    ensures forall i :: 0 <= i < |s| ==> '0' <= s[i] <= '9'
    ensures DecimalValue(s) == n
    ensures |s| > 1 ==> s[0] != '0'
  {
    if n < 10 then [Digit(n)] else
      var prefix := NatToString(n / 10);
      var s := prefix + [Digit(n % 10)];
      assert s[..|s| - 1] == prefix;
      s
  }
}

=== FILE: clr_types.dfy ===
/**
 * The part of the .NET type system that method selection looks at: parameter and
 * return types, parameters with their `out` flag, method signatures, and the
 * members a declaring type enumerates.
 */
module ClrTypes {
  import opened Wrappers

  /**
   * A runtime type. `ByRef(t)` is the managed-pointer type `t&` that both a
   * `ref t` and an `out t` parameter have; `Arr(t)` is `t[]`.
   */
  datatype Ty = Named(name: string) | ByRef(elem: Ty) | Arr(elem: Ty)

  const Void := Named("Void")
  const Int32 := Named("Int32")
  const String := Named("String")
  const Object := Named("Object")
  const Boolean := Named("Boolean")
  const TypeType := Named("Type")

  /**
   * A formal parameter. `isOut` is kept apart from the type: the CLR gives
   * `ref int` and `out int` the same type `Int32&` and records the difference
   * only on the parameter.
   */
  datatype Param = Param(name: string, ty: Ty, isOut: bool)

  /** A return type and an ordered parameter list. */
  datatype Signature = Signature(ret: Ty, params: seq<Param>)

  /** A reflected method: what `MethodInfo` exposes to the selection. */
  datatype MethodInfo = MethodInfo(name: string, isStatic: bool, sig: Signature)

  /**
   * A declaring type: its simple name and the methods that a lookup with both
   * public and non-public visibility enumerates, static and instance together,
   * in enumeration order.
   */
  datatype TypeDef = TypeDef(name: string, methods: seq<MethodInfo>)

  /**
   * The type supplied as the delegate shape. `isDelegate` says whether it is
   * assignable to `System.Delegate`; `invoke` is the signature of its public
   * `Invoke` method, `None` when it has none (as for `System.Delegate` and
   * `System.MulticastDelegate` themselves).
   */
  datatype ShapeType = ShapeType(name: string, isDelegate: bool, invoke: Option<Signature>) {
    /** A delegate type with an `Invoke` method: the shapes a lookup can compare against. */
    predicate HasInvoke() { isDelegate && invoke.Some? }
  }

  /** The parameter types of a signature, position by position (`GetParamTypes`). */
  function ParamTypes(sig: Signature): (r: seq<Ty>)
    ensures |r| == |sig.params|
    ensures forall i :: 0 <= i < |r| ==> r[i] == sig.params[i].ty
  {
    TypesOf(sig.params)
  }

  function TypesOf(params: seq<Param>): (r: seq<Ty>)
    ensures |r| == |params|
    ensures forall i :: 0 <= i < |r| ==> r[i] == params[i].ty
  {
    if |params| == 0 then [] else [params[0].ty] + TypesOf(params[1..])
  }
}

=== FILE: method_reflection.dfy ===
/**
 * Locating a method on a declaring type by the shape of a delegate type, and
 * binding it into a callable.
 *
 * A lookup keeps the candidates of the requested static/instance kind whose
 * return type and parameter-type sequence equal those of the delegate's
 * `Invoke`, takes the first one (in enumeration order) whose name equals the
 * wanted name ordinally, falls back to the first case-insensitive match when
 * that is asked for, and finally checks that every by-reference position
 * agrees on `ref` versus `out`.
 */
module MethodReflection {
  import opened Wrappers
  import opened ClrTypes
  import opened ClrExceptions
  import opened ClrText

  // ---------------------------------------------------------------------------
  // Array comparison

  /**
   * `ArraysEqual`: two arrays are equal when both are null, or when neither is
   * and they agree in length and element by element.
   */
  function ArraysEqual<T(==)>(a: Option<seq<T>>, b: Option<seq<T>>): (r: bool)
    ensures r <==> a == b
    ensures (a.None? && b.None?) ==> r
    ensures (a.None? != b.None?) ==> !r
  {
    if a.None? && b.None? then true
    else if a.None? || b.None? then false
    else if |a.value| != |b.value| then false
    else
      var eq := ElementsEqualFrom(a.value, b.value, 0);
      assert eq ==> a.value == b.value;
      eq
  }

  /** The comparison loop: positions `i` onwards agree; stops at the first that does not. */
  function ElementsEqualFrom<T(==)>(a: seq<T>, b: seq<T>, i: nat): (r: bool)
    requires |a| == |b| && i <= |a|
    ensures r <==> forall j :: i <= j < |a| ==> a[j] == b[j]
    decreases |a| - i
  {
    if i == |a| then true
    else if a[i] != b[i] then false
    else ElementsEqualFrom(a, b, i + 1)
  }

  // ---------------------------------------------------------------------------
  // Shape filter and name selection

  /**
   * A candidate has the requested shape: the static/instance kind the lookup
   * enumerates, the delegate's return type, and the delegate's parameter types
   * position by position. `ref t` and `out t` both have type `t&`, so this
   * filter cannot tell them apart.
   */
  predicate Eligible(m: MethodInfo, wantStatic: bool, shape: Signature)
  {
    && m.isStatic == wantStatic
    && m.sig.ret == shape.ret
    && ArraysEqual(Some(ParamTypes(shape)), Some(ParamTypes(m.sig)))
  }

  /** The candidates of `methods` with the requested shape, in enumeration order. */
  function ShapeFilter(methods: seq<MethodInfo>, wantStatic: bool, shape: Signature): (r: seq<MethodInfo>)
    ensures |r| <= |methods|
    ensures forall k :: 0 <= k < |r| ==> r[k] in methods && Eligible(r[k], wantStatic, shape)
    ensures forall k :: 0 <= k < |methods| && Eligible(methods[k], wantStatic, shape) ==> methods[k] in r
  {
    if |methods| == 0 then []
    else
      var rest := ShapeFilter(methods[1..], wantStatic, shape);
      if Eligible(methods[0], wantStatic, shape) then [methods[0]] + rest else rest
  }

  /** `FirstOrDefault` by name: the first method of `s` whose name matches `name`. */
  function FirstNamed(s: seq<MethodInfo>, name: string, ignoreCase: bool): (r: Option<MethodInfo>)
    ensures r.Some? ==> r.value in s && NamesMatch(r.value.name, name, ignoreCase)
    ensures r.None? <==> forall k :: 0 <= k < |s| ==> !NamesMatch(s[k].name, name, ignoreCase)
  {
    if |s| == 0 then None
    else if NamesMatch(s[0].name, name, ignoreCase) then Some(s[0])
    else FirstNamed(s[1..], name, ignoreCase)
  }

  /** `FirstNamed` yields the method at the earliest position whose name matches, not merely some matching one. */
  lemma {:induction false} FirstNamedIsFirst(s: seq<MethodInfo>, k: int, name: string, ignoreCase: bool)
    requires 0 <= k < |s| && NamesMatch(s[k].name, name, ignoreCase)
    requires forall j :: 0 <= j < k ==> !NamesMatch(s[j].name, name, ignoreCase)
    ensures FirstNamed(s, name, ignoreCase) == Some(s[k])
    decreases k
  {
    if k > 0 {
      assert !NamesMatch(s[0].name, name, ignoreCase);
      forall j | 0 <= j < k - 1
        ensures !NamesMatch(s[1..][j].name, name, ignoreCase)
      {
        assert s[1..][j] == s[j + 1];
      }
      FirstNamedIsFirst(s[1..], k - 1, name, ignoreCase);
    }
  }

  /** A candidate that passes the shape filter and the name comparison. */
  predicate Matches(m: MethodInfo, wantStatic: bool, shape: Signature, name: string, ignoreCase: bool)
  {
    Eligible(m, wantStatic, shape) && NamesMatch(m.name, name, ignoreCase)
  }

  /** `i` is the earliest position of `methods` holding a matching candidate. */
  predicate IsFirstMatch(methods: seq<MethodInfo>, i: int, wantStatic: bool, shape: Signature, name: string, ignoreCase: bool)
  {
    && 0 <= i < |methods|
    && Matches(methods[i], wantStatic, shape, name, ignoreCase)
    && forall j :: 0 <= j < i ==> !Matches(methods[j], wantStatic, shape, name, ignoreCase)
  }

  /** No candidate of `methods` matches. */
  predicate NoMatch(methods: seq<MethodInfo>, wantStatic: bool, shape: Signature, name: string, ignoreCase: bool)
  {
    forall k :: 0 <= k < |methods| ==> !Matches(methods[k], wantStatic, shape, name, ignoreCase)
  }

  /**
   * Name selection over the filtered candidates: the first ordinal match, and
   * only when there is none and `ignoreCase` holds, the first case-insensitive
   * match.
   */
  function Select(methods: seq<MethodInfo>, wantStatic: bool, shape: Signature, name: string, ignoreCase: bool): (r: Option<MethodInfo>)
    ensures r.Some? ==> r.value in methods && Eligible(r.value, wantStatic, shape)
    ensures r.Some? ==> NamesMatch(r.value.name, name, ignoreCase)
    ensures r.Some? && !ignoreCase ==> r.value.name == name
    ensures r.None? <==> NoMatch(methods, wantStatic, shape, name, ignoreCase)
  {
    var filtered := ShapeFilter(methods, wantStatic, shape);
    var exact := FirstNamed(filtered, name, false);
    if exact.None? && ignoreCase then
      FirstNamed(filtered, name, true)
    else
      exact
  }

  /** The first filtered candidate with a matching name is the earliest matching candidate of the whole enumeration. */
  lemma {:induction false} FirstNamedIsEarliest(methods: seq<MethodInfo>, i: int, wantStatic: bool, shape: Signature, name: string, ignoreCase: bool)
    requires IsFirstMatch(methods, i, wantStatic, shape, name, ignoreCase)
    ensures FirstNamed(ShapeFilter(methods, wantStatic, shape), name, ignoreCase) == Some(methods[i])
    decreases |methods|
  {
    var filtered := ShapeFilter(methods, wantStatic, shape);
    var rest := ShapeFilter(methods[1..], wantStatic, shape);
    if i == 0 {
      assert filtered == [methods[0]] + rest;
    } else {
      assert !Matches(methods[0], wantStatic, shape, name, ignoreCase);
      assert IsFirstMatch(methods[1..], i - 1, wantStatic, shape, name, ignoreCase) by {
        forall j | 0 <= j < i - 1
          ensures !Matches(methods[1..][j], wantStatic, shape, name, ignoreCase)
        {
          assert methods[1..][j] == methods[j + 1];
        }
      }
      FirstNamedIsEarliest(methods[1..], i - 1, wantStatic, shape, name, ignoreCase);
      if Eligible(methods[0], wantStatic, shape) {
        assert filtered == [methods[0]] + rest;
        assert filtered[1..] == rest;
      } else {
        assert filtered == rest;
      }
    }
  }

  /**
   * Sufficient reasons for a candidate not to match: wrong static/instance
   * kind, return type, arity or a parameter type, a name of another length, or
   * (with the ordinal comparison) another name.
   */
  predicate PlainlyDiffers(m: MethodInfo, wantStatic: bool, shape: Signature, name: string, ignoreCase: bool)
  {
    || m.isStatic != wantStatic
    || m.sig.ret != shape.ret
    || |m.sig.params| != |shape.params|
    || ParamTypes(m.sig) != ParamTypes(shape)
    || |m.name| != |name|
    || (!ignoreCase && m.name != name)
  }

  lemma PlainlyDiffersNoMatch(m: MethodInfo, wantStatic: bool, shape: Signature, name: string, ignoreCase: bool)
    requires PlainlyDiffers(m, wantStatic, shape, name, ignoreCase)
    ensures !Matches(m, wantStatic, shape, name, ignoreCase)
  {
    if Eligible(m, wantStatic, shape) {
      EligibleSameArity(m, wantStatic, shape);
    }
  }

  /** With an ordinal match present, selection returns the earliest one, whatever `ignoreCase` says. */
  lemma SelectsFirstExact(methods: seq<MethodInfo>, i: int, wantStatic: bool, shape: Signature, name: string, ignoreCase: bool)
    requires IsFirstMatch(methods, i, wantStatic, shape, name, false)
    ensures Select(methods, wantStatic, shape, name, ignoreCase) == Some(methods[i])
  {
    FirstNamedIsEarliest(methods, i, wantStatic, shape, name, false);
  }

  /** Without an ordinal match, a case-insensitive lookup returns the earliest case-insensitive match. */
  lemma SelectsFirstIgnoringCase(methods: seq<MethodInfo>, i: int, wantStatic: bool, shape: Signature, name: string)
    requires NoMatch(methods, wantStatic, shape, name, false)
    requires IsFirstMatch(methods, i, wantStatic, shape, name, true)
    ensures Select(methods, wantStatic, shape, name, true) == Some(methods[i])
  {
    FirstNamedIsEarliest(methods, i, wantStatic, shape, name, true);
  }

  // ---------------------------------------------------------------------------
  // ref / out agreement

  /** Delegate position `i` is by-reference and the target disagrees with it on `out`. */
  predicate KindMismatchAt(d: seq<Param>, t: seq<Param>, i: int)
  {
    0 <= i < |d| && i < |t| && d[i].ty.ByRef? && d[i].isOut != t[i].isOut
  }

  /** The first position at or after `i` where the delegate and the target disagree on `ref` versus `out`. */
  function FirstKindMismatch(d: seq<Param>, t: seq<Param>, i: nat): (r: Option<nat>)
    requires |d| == |t| && i <= |d|
    ensures r.Some? ==> i <= r.value < |d| && KindMismatchAt(d, t, r.value)
    ensures r.Some? ==> forall j :: i <= j < r.value ==> !KindMismatchAt(d, t, j)
    ensures r.None? <==> forall j :: i <= j < |d| ==> !KindMismatchAt(d, t, j)
    decreases |d| - i
  {
    if i == |d| then None
    else if !d[i].ty.ByRef? then FirstKindMismatch(d, t, i + 1)
    else if d[i].isOut != t[i].isOut then assert KindMismatchAt(d, t, i); Some(i)
    else FirstKindMismatch(d, t, i + 1)
  }

  /** Every by-reference position of the delegate has the target's `out` flag. */
  predicate KindsAgree(d: seq<Param>, t: seq<Param>)
  {
    forall j :: 0 <= j < |d| ==> !KindMismatchAt(d, t, j)
  }

  predicate HasByRef(types: seq<Ty>)
  {
    exists k :: 0 <= k < |types| && types[k].ByRef?
  }

  function KindWord(isOut: bool): string
  {
    if isOut then "out" else "ref"
  }

  // ---------------------------------------------------------------------------
  // Errors

  function NotDelegateError(shape: ShapeType): Exn
  {
    Exn(ArgumentException, shape.name + " is not a delegate type", None)
  }

  const NoMatchingMethodError := Exn(MissingMethodException, "No matching method found on target type", None)

  const NullReferenceError := Exn(NullReferenceException, NullReferenceMessage, None)

  function KindMismatchError(target: Param, delegate: Param, i: nat): Exn
  {
    Exn(MissingMethodException,
      "Target method parameter " + target.name + " at position " + NatToString(i) + " is " + KindWord(target.isOut)
      + " but delegate method parameter " + delegate.name + " at position " + NatToString(i) + " is " + KindWord(delegate.isOut),
      None)
  }

  // ---------------------------------------------------------------------------
  // Resolution

  /** The name searched for: the one supplied, or the delegate type's simple name. */
  function EffectiveName(shape: ShapeType, methodName: Option<string>): (name: string)
    ensures methodName.Some? ==> name == methodName.value
    ensures methodName.None? ==> name == shape.name
  {
    methodName.GetOr(shape.name)
  }

  /** Parameter types equal position by position means parameter lists of equal length. */
  lemma EligibleSameArity(m: MethodInfo, wantStatic: bool, shape: Signature)
    requires Eligible(m, wantStatic, shape)
    ensures |m.sig.params| == |shape.params|
    ensures forall k :: 0 <= k < |shape.params| ==> m.sig.params[k].ty == shape.params[k].ty
  {
    assert ParamTypes(shape) == ParamTypes(m.sig);
    forall k | 0 <= k < |shape.params|
      ensures m.sig.params[k].ty == shape.params[k].ty
    {
      assert ParamTypes(shape)[k] == ParamTypes(m.sig)[k];
    }
  }

  /**
   * The private `GetMethodInfo`: resolve the method of `declaringType` that the
   * delegate type `shape` describes.
   */
  function FindMethod(declaringType: Option<TypeDef>, shape: ShapeType, methodName: Option<string>, ignoreCase: bool, wantStatic: bool): (r: Result<MethodInfo, Exn>)
    ensures !shape.isDelegate ==> r == Err(NotDelegateError(shape))
    ensures shape.isDelegate && shape.invoke.None? ==> r == Err(NullReferenceError)
    ensures r.Ok? ==> shape.HasInvoke() && declaringType.Some? && r.value in declaringType.value.methods
    ensures r.Ok? ==> Eligible(r.value, wantStatic, shape.invoke.value)
    ensures r.Ok? ==> r.value.isStatic == wantStatic && r.value.sig.ret == shape.invoke.value.ret
    ensures r.Ok? ==> shape.HasInvoke() && ParamTypes(r.value.sig) == ParamTypes(shape.invoke.value)
    ensures r.Ok? ==> (|shape.invoke.value.params| == |r.value.sig.params|
                       && KindsAgree(shape.invoke.value.params, r.value.sig.params))
    ensures r.Ok? ==> NamesMatch(r.value.name, EffectiveName(shape, methodName), ignoreCase)
    ensures r.Ok? && !ignoreCase ==> r.value.name == EffectiveName(shape, methodName)
  {
    if !shape.isDelegate then Err(NotDelegateError(shape))
    // a delegate type without `Invoke`: reading the parameters of the missing method throws
    else if shape.invoke.None? then Err(NullReferenceError)
    else
      var name := EffectiveName(shape, methodName);
      var invoke := shape.invoke.value;
      if declaringType.None? then Err(NullReferenceError)
      else
        match Select(declaringType.value.methods, wantStatic, invoke, name, ignoreCase)
        case None => Err(NoMatchingMethodError)
        case Some(m) =>
          EligibleSameArity(m, wantStatic, invoke);
          if HasByRef(ParamTypes(invoke)) then
            match FirstKindMismatch(invoke.params, m.sig.params, 0)
            case Some(i) => Err(KindMismatchError(m.sig.params[i], invoke.params[i], i))
            case None => Ok(m)
          else
            assert FirstKindMismatch(invoke.params, m.sig.params, 0).None? by {
              forall j | 0 <= j < |invoke.params|
                ensures !KindMismatchAt(invoke.params, m.sig.params, j)
              {
                assert ParamTypes(invoke)[j] == invoke.params[j].ty;
              }
            }
            Ok(m)
  }

  /** Leaving the name out searches for the delegate type's own name. */
  lemma NameDefaultsToShapeName(declaringType: Option<TypeDef>, shape: ShapeType, ignoreCase: bool, wantStatic: bool)
    ensures FindMethod(declaringType, shape, None, ignoreCase, wantStatic)
         == FindMethod(declaringType, shape, Some(shape.name), ignoreCase, wantStatic)
  {
  }

  /** The shape is validated before anything else: a non-delegate type fails the same way whatever the other arguments are. */
  lemma NotDelegateFailsFirst(dt1: Option<TypeDef>, dt2: Option<TypeDef>, shape: ShapeType,
                              n1: Option<string>, n2: Option<string>, ic1: bool, ic2: bool, st1: bool, st2: bool)
    requires !shape.isDelegate
    ensures FindMethod(dt1, shape, n1, ic1, st1) == FindMethod(dt2, shape, n2, ic2, st2)
    ensures FindMethod(dt1, shape, n1, ic1, st1).Err?
    ensures FindMethod(dt1, shape, n1, ic1, st1).error.message == shape.name + " is not a delegate type"
  {
  }

  /**
   * When some candidate matches with the ordinal name comparison, resolution
   * picks the earliest such candidate, and succeeds when it agrees with the
   * delegate on every `ref`/`out` position.
   */
  lemma ResolvesEarliestExact(t: TypeDef, shape: ShapeType, methodName: Option<string>, ignoreCase: bool, wantStatic: bool, i: int)
    requires shape.HasInvoke()
    requires IsFirstMatch(t.methods, i, wantStatic, shape.invoke.value, EffectiveName(shape, methodName), false)
    requires KindsAgree(shape.invoke.value.params, t.methods[i].sig.params)
    ensures FindMethod(Some(t), shape, methodName, ignoreCase, wantStatic) == Ok(t.methods[i])
  {
    SelectsFirstExact(t.methods, i, wantStatic, shape.invoke.value, EffectiveName(shape, methodName), ignoreCase);
    EligibleSameArity(t.methods[i], wantStatic, shape.invoke.value);
  }

  /**
   * When the earliest ordinal match disagrees with the delegate on `ref`
   * versus `out`, resolution fails at the first disagreeing position; it does
   * not go on to a later candidate.
   */
  lemma RejectsKindMismatch(t: TypeDef, shape: ShapeType, methodName: Option<string>, ignoreCase: bool, wantStatic: bool, i: int, k: int)
    requires shape.HasInvoke()
    requires IsFirstMatch(t.methods, i, wantStatic, shape.invoke.value, EffectiveName(shape, methodName), false)
    requires KindMismatchAt(shape.invoke.value.params, t.methods[i].sig.params, k)
    requires forall j :: 0 <= j < k ==> !KindMismatchAt(shape.invoke.value.params, t.methods[i].sig.params, j)
    ensures FindMethod(Some(t), shape, methodName, ignoreCase, wantStatic)
         == Err(KindMismatchError(t.methods[i].sig.params[k], shape.invoke.value.params[k], k))
  {
    var invoke := shape.invoke.value;
    var m := t.methods[i];
    SelectsFirstExact(t.methods, i, wantStatic, invoke, EffectiveName(shape, methodName), ignoreCase);
    EligibleSameArity(m, wantStatic, invoke);
    assert ParamTypes(invoke)[k].ByRef?;
    var r := FirstKindMismatch(invoke.params, m.sig.params, 0);
    assert r == Some(k);
  }

  /** Without an ordinal match, a case-insensitive lookup resolves the earliest case-insensitive match. */
  lemma ResolvesEarliestIgnoringCase(t: TypeDef, shape: ShapeType, methodName: Option<string>, wantStatic: bool, i: int)
    requires shape.HasInvoke()
    requires NoMatch(t.methods, wantStatic, shape.invoke.value, EffectiveName(shape, methodName), false)
    requires IsFirstMatch(t.methods, i, wantStatic, shape.invoke.value, EffectiveName(shape, methodName), true)
    requires KindsAgree(shape.invoke.value.params, t.methods[i].sig.params)
    ensures FindMethod(Some(t), shape, methodName, true, wantStatic) == Ok(t.methods[i])
  {
    SelectsFirstIgnoringCase(t.methods, i, wantStatic, shape.invoke.value, EffectiveName(shape, methodName));
    EligibleSameArity(t.methods[i], wantStatic, shape.invoke.value);
  }

  /**
   * The ref/out check also applies to a case-insensitive pick: when the
   * earliest case-insensitive match disagrees with the delegate, resolution
   * fails at the first disagreeing position rather than trying another
   * candidate.
   */
  lemma RejectsKindMismatchIgnoringCase(t: TypeDef, shape: ShapeType, methodName: Option<string>, wantStatic: bool, i: int, k: int)
    requires shape.HasInvoke()
    requires NoMatch(t.methods, wantStatic, shape.invoke.value, EffectiveName(shape, methodName), false)
    requires IsFirstMatch(t.methods, i, wantStatic, shape.invoke.value, EffectiveName(shape, methodName), true)
    requires KindMismatchAt(shape.invoke.value.params, t.methods[i].sig.params, k)
    requires forall j :: 0 <= j < k ==> !KindMismatchAt(shape.invoke.value.params, t.methods[i].sig.params, j)
    ensures FindMethod(Some(t), shape, methodName, true, wantStatic)
         == Err(KindMismatchError(t.methods[i].sig.params[k], shape.invoke.value.params[k], k))
  {
    var invoke := shape.invoke.value;
    var m := t.methods[i];
    SelectsFirstIgnoringCase(t.methods, i, wantStatic, invoke, EffectiveName(shape, methodName));
    EligibleSameArity(m, wantStatic, invoke);
    assert ParamTypes(invoke)[k].ByRef?;
    assert FirstKindMismatch(invoke.params, m.sig.params, 0) == Some(k);
  }

  /**
   * "No matching method" is reported exactly when no candidate passes both the
   * shape filter and the name comparison in force.
   */
  lemma NotFoundIffNoMatch(t: TypeDef, shape: ShapeType, methodName: Option<string>, ignoreCase: bool, wantStatic: bool)
    requires shape.HasInvoke()
    ensures FindMethod(Some(t), shape, methodName, ignoreCase, wantStatic) == Err(NoMatchingMethodError)
        <==> NoMatch(t.methods, wantStatic, shape.invoke.value, EffectiveName(shape, methodName), ignoreCase)
  {
    var r := FindMethod(Some(t), shape, methodName, ignoreCase, wantStatic);
    if r.Err? && r.error.message != NoMatchingMethodError.message {
      // the only other failure here is a ref/out mismatch, whose text starts differently
      assert r.error.message[0] == 'T';
    }
  }

  /** With no by-reference parameter in the delegate, the ref/out check never fails: resolution succeeds exactly when a candidate matches. */
  lemma NoByRefNeverKindMismatch(t: TypeDef, shape: ShapeType, methodName: Option<string>, ignoreCase: bool, wantStatic: bool)
    requires shape.HasInvoke()
    requires forall k :: 0 <= k < |shape.invoke.value.params| ==> !shape.invoke.value.params[k].ty.ByRef?
    ensures FindMethod(Some(t), shape, methodName, ignoreCase, wantStatic).Ok?
        <==> !NoMatch(t.methods, wantStatic, shape.invoke.value, EffectiveName(shape, methodName), ignoreCase)
  {
    assert !HasByRef(ParamTypes(shape.invoke.value));
  }

  // ---------------------------------------------------------------------------
  // Binding

  /** A delegate bound to a resolved method: closed over `target` for an instance method, over nothing for a static one. */
  datatype BoundCallable<O> = BoundCallable(resolved: MethodInfo, target: Option<O>)

  /** The private `GetMethodCaller`: resolve, then bind a static method alone or an instance method to `instance`. */
  function BindMethod<O>(instance: Option<O>, declaringType: Option<TypeDef>, shape: ShapeType, methodName: Option<string>, ignoreCase: bool, wantStatic: bool): (r: Result<BoundCallable<O>, Exn>)
    ensures r.Ok? ==> r.value.resolved.isStatic == wantStatic
    ensures r.Ok? && wantStatic ==> r.value.target.None?
    ensures r.Ok? && !wantStatic ==> r.value.target == instance
    ensures r.Ok? ==> declaringType.Some? && r.value.resolved in declaringType.value.methods
  {
    match FindMethod(declaringType, shape, methodName, ignoreCase, wantStatic)
    case Err(e) => Err(e)
    case Ok(m) => if wantStatic then Ok(BoundCallable(m, None)) else Ok(BoundCallable(m, instance))
  }

  /** Binding resolves exactly as the method lookup does with the same arguments: same method on success, same exception on failure. */
  lemma BindResolvesLikeFind<O>(instance: Option<O>, declaringType: Option<TypeDef>, shape: ShapeType, methodName: Option<string>, ignoreCase: bool, wantStatic: bool)
    ensures var f := FindMethod(declaringType, shape, methodName, ignoreCase, wantStatic);
            var b := BindMethod(instance, declaringType, shape, methodName, ignoreCase, wantStatic);
            && (f.Ok? <==> b.Ok?)
            && (f.Ok? ==> b.value.resolved == f.value)
            && (f.Err? ==> b == Err(f.error))
  {
  }

  // ---------------------------------------------------------------------------
  // Public overloads

  /** `GetMethodInfo<T, TDelegate>(static)`: the method of `T` named like the delegate type. */
  function GetMethodInfoOf(t: TypeDef, shape: ShapeType, wantStatic: bool): (r: Result<MethodInfo, Exn>)
    ensures r.Ok? ==> r.value in t.methods && r.value.isStatic == wantStatic && r.value.name == shape.name
    ensures r.Ok? ==> shape.HasInvoke() && ParamTypes(r.value.sig) == ParamTypes(shape.invoke.value)
  {
    FindMethod(Some(t), shape, Some(shape.name), false, wantStatic)
  }

  /** `GetMethodInfo<TDelegate>(declaringType, static)`. */
  function GetMethodInfoOn(declaringType: Option<TypeDef>, shape: ShapeType, wantStatic: bool): (r: Result<MethodInfo, Exn>)
    ensures r.Ok? ==> declaringType.Some? && r.value in declaringType.value.methods
    ensures r.Ok? ==> r.value.isStatic == wantStatic && r.value.name == shape.name
  {
    FindMethod(declaringType, shape, Some(shape.name), false, wantStatic)
  }

  /** `GetMethodInfo<TDelegate>(declaringType, methodName, static, ignoreCase)`. */
  function GetMethodInfoNamed(declaringType: Option<TypeDef>, shape: ShapeType, methodName: Option<string>, wantStatic: bool, ignoreCase: bool): (r: Result<MethodInfo, Exn>)
    ensures r.Ok? ==> r.value.isStatic == wantStatic
    ensures r.Ok? ==> NamesMatch(r.value.name, EffectiveName(shape, methodName), ignoreCase)
    ensures r.Ok? && !ignoreCase && methodName.Some? ==> r.value.name == methodName.value
  {
    FindMethod(declaringType, shape, methodName, ignoreCase, wantStatic)
  }

  /** `GetMethodCaller<T, TDelegate>()`: a static method of `T` named like the delegate type. */
  function GetStaticCallerOf<O>(t: TypeDef, shape: ShapeType): (r: Result<BoundCallable<O>, Exn>)
    ensures r.Ok? ==> r.value.target.None? && r.value.resolved.isStatic
    ensures r.Ok? ==> r.value.resolved in t.methods && r.value.resolved.name == shape.name
  {
    BindMethod(None, Some(t), shape, Some(shape.name), false, true)
  }

  /** `GetMethodCaller<TDelegate>(declaringType)`. */
  function GetStaticCallerOn<O>(declaringType: Option<TypeDef>, shape: ShapeType): (r: Result<BoundCallable<O>, Exn>)
    ensures r.Ok? ==> r.value.target.None? && r.value.resolved.isStatic && r.value.resolved.name == shape.name
  {
    BindMethod(None, declaringType, shape, Some(shape.name), false, true)
  }

  /** `GetMethodCaller<TDelegate>(declaringType, methodName, ignoreCase)`. */
  function GetStaticCallerNamed<O>(declaringType: Option<TypeDef>, shape: ShapeType, methodName: Option<string>, ignoreCase: bool): (r: Result<BoundCallable<O>, Exn>)
    ensures r.Ok? ==> r.value.target.None? && r.value.resolved.isStatic
    ensures r.Ok? ==> NamesMatch(r.value.resolved.name, EffectiveName(shape, methodName), ignoreCase)
  {
    BindMethod(None, declaringType, shape, methodName, ignoreCase, true)
  }

  /** `GetMethodCaller<TDelegate>(instance, declaringType)`: passes no name, so the delegate type's name is searched. */
  function GetInstanceCaller<O>(instance: Option<O>, declaringType: Option<TypeDef>, shape: ShapeType): (r: Result<BoundCallable<O>, Exn>)
    ensures r.Ok? ==> r.value.target == instance && !r.value.resolved.isStatic
    ensures r.Ok? ==> r.value.resolved.name == shape.name
  {
    BindMethod(instance, declaringType, shape, None, false, false)
  }

  /** `GetMethodCaller<TDelegate>(instance, declaringType, methodName, ignoreCase)`. */
  function GetInstanceCallerNamed<O>(instance: Option<O>, declaringType: Option<TypeDef>, shape: ShapeType, methodName: Option<string>, ignoreCase: bool): (r: Result<BoundCallable<O>, Exn>)
    ensures r.Ok? ==> r.value.target == instance && !r.value.resolved.isStatic
    ensures r.Ok? ==> NamesMatch(r.value.resolved.name, EffectiveName(shape, methodName), ignoreCase)
  {
    BindMethod(instance, declaringType, shape, methodName, ignoreCase, false)
  }

  /** The name-less overloads search for the delegate type's name, exactly as the named ones do when left without a name. */
  lemma NamelessInfoUsesShapeName(declaringType: Option<TypeDef>, shape: ShapeType, wantStatic: bool)
    ensures GetMethodInfoOn(declaringType, shape, wantStatic) == GetMethodInfoNamed(declaringType, shape, None, wantStatic, false)
  {
    NameDefaultsToShapeName(declaringType, shape, false, wantStatic);
  }

  lemma NamelessStaticCallerUsesShapeName<O>(declaringType: Option<TypeDef>, shape: ShapeType)
    ensures GetStaticCallerOn<O>(declaringType, shape) == GetStaticCallerNamed(declaringType, shape, None, false)
  {
    NameDefaultsToShapeName(declaringType, shape, false, true);
  }

  /** The instance overload without a name passes a null name, which comes to the same as passing the delegate type's name. */
  lemma NamelessInstanceCallerUsesShapeName<O>(instance: Option<O>, declaringType: Option<TypeDef>, shape: ShapeType)
    ensures GetInstanceCaller(instance, declaringType, shape) == GetInstanceCallerNamed(instance, declaringType, shape, Some(shape.name), false)
  {
    NameDefaultsToShapeName(declaringType, shape, false, false);
  }
}

=== FILE: test_class_fixture.dfy ===
/**
 * The mock `TestClass` and the delegate types its tests declare, as concrete
 * data, with the test scenarios of the method-reflection tests proved as
 * lemmas about the model.
 */
module TestClassFixture {
  import opened Wrappers
  import opened ClrTypes
  import opened ClrExceptions
  import opened ClrText
  import opened MethodReflection

  function P(name: string, ty: Ty): Param { Param(name, ty, false) }
  function Out(name: string, ty: Ty): Param { Param(name, ByRef(ty), true) }
  function Ref(name: string, ty: Ty): Param { Param(name, ByRef(ty), false) }

  function Static(name: string, ret: Ty, params: seq<Param>): MethodInfo { MethodInfo(name, true, Signature(ret, params)) }
  function Instance(name: string, ret: Ty, params: seq<Param>): MethodInfo { MethodInfo(name, false, Signature(ret, params)) }

  /**
   * The methods a public-and-non-public lookup enumerates on `TestClass`: its
   * own static and instance methods (the `Name` accessors included) and the
   * instance methods inherited from `Object`.
   */
  const M0 := Static("ProtectedStatic", Void, [])
  const M1 := Static("ProtectedStatic", Void, [P("stringArg", String)])
  const M2 := Static("ProtectedStatic", Void, [Ref("intArg", Int32)])
  const M3 := Static("ProtectedStatic", Void, [P("intArgIn", Int32), Out("intArgOut", Int32)])
  const M4 := Static("ProtectedStatic", Void, [P("intArg", Int32), P("paramArgs", Arr(Object))])
  const M5 := Static("PrivateStatic", String, [])
  const M6 := Static("PrivateStatic", String, [P("count", Int32)])
  const M7 := Instance("get_Name", String, [])
  const M8 := Instance("set_Name", Void, [P("value", String)])
  const M9 := Instance("PrivateInstance", Void, [])
  const M10 := Instance("PrivateInstance", Void, [P("intArg", Int32)])
  const M11 := Instance("ProtectedInstance", String, [])
  const M12 := Instance("ProtectedInstance", String, [P("count", Int32)])
  const M13 := Instance("ToString", String, [])
  const M14 := Instance("Equals", Boolean, [P("obj", Object)])
  const M15 := Instance("GetHashCode", Int32, [])
  const M16 := Instance("GetType", TypeType, [])
  const M17 := Instance("Finalize", Void, [])
  const M18 := Instance("MemberwiseClone", Object, [])

  const TestClassMethods: seq<MethodInfo> := [M0, M1, M2, M3, M4, M5, M6, M7, M8, M9, M10, M11, M12, M13, M14, M15, M16, M17, M18]

  const TestClass := TypeDef("TestClass", TestClassMethods)

  /**
   * None of the first `n` table entries matches, established entry by entry.
   * The table is unrolled on purpose: one small fact per named entry keeps each
   * proof within the solver's resource limit, where a quantifier over the
   * literal table does not.
   */
  lemma NoneMatchBelow(n: int, wantStatic: bool, shape: Signature, name: string, ignoreCase: bool)
    requires 0 <= n <= |TestClassMethods|
    requires
      (0 < n ==> PlainlyDiffers(M0, wantStatic, shape, name, ignoreCase)) &&
      (1 < n ==> PlainlyDiffers(M1, wantStatic, shape, name, ignoreCase)) &&
      (2 < n ==> PlainlyDiffers(M2, wantStatic, shape, name, ignoreCase)) &&
      (3 < n ==> PlainlyDiffers(M3, wantStatic, shape, name, ignoreCase)) &&
      (4 < n ==> PlainlyDiffers(M4, wantStatic, shape, name, ignoreCase)) &&
      (5 < n ==> PlainlyDiffers(M5, wantStatic, shape, name, ignoreCase)) &&
      (6 < n ==> PlainlyDiffers(M6, wantStatic, shape, name, ignoreCase)) &&
      (7 < n ==> PlainlyDiffers(M7, wantStatic, shape, name, ignoreCase)) &&
      (8 < n ==> PlainlyDiffers(M8, wantStatic, shape, name, ignoreCase)) &&
      (9 < n ==> PlainlyDiffers(M9, wantStatic, shape, name, ignoreCase)) &&
      (10 < n ==> PlainlyDiffers(M10, wantStatic, shape, name, ignoreCase)) &&
      (11 < n ==> PlainlyDiffers(M11, wantStatic, shape, name, ignoreCase)) &&
      (12 < n ==> PlainlyDiffers(M12, wantStatic, shape, name, ignoreCase)) &&
      (13 < n ==> PlainlyDiffers(M13, wantStatic, shape, name, ignoreCase)) &&
      (14 < n ==> PlainlyDiffers(M14, wantStatic, shape, name, ignoreCase)) &&
      (15 < n ==> PlainlyDiffers(M15, wantStatic, shape, name, ignoreCase)) &&
      (16 < n ==> PlainlyDiffers(M16, wantStatic, shape, name, ignoreCase)) &&
      (17 < n ==> PlainlyDiffers(M17, wantStatic, shape, name, ignoreCase)) &&
      (18 < n ==> PlainlyDiffers(M18, wantStatic, shape, name, ignoreCase))
    ensures forall j :: 0 <= j < n ==> !Matches(TestClassMethods[j], wantStatic, shape, name, ignoreCase)
  {
    forall j | 0 <= j < n
      ensures !Matches(TestClassMethods[j], wantStatic, shape, name, ignoreCase)
    {
      assert j == 0 || j == 1 || j == 2 || j == 3 || j == 4 || j == 5 || j == 6 || j == 7 || j == 8 || j == 9 || j == 10 || j == 11 || j == 12 || j == 13 || j == 14 || j == 15 || j == 16 || j == 17 || j == 18;
      PlainlyDiffersNoMatch(TestClassMethods[j], wantStatic, shape, name, ignoreCase);
    }
  }

  function Delegate(name: string, ret: Ty, params: seq<Param>): ShapeType { ShapeType(name, true, Some(Signature(ret, params))) }

  // The delegate types declared by the tests.
  const ProtectedStatic := Delegate("ProtectedStatic", Void, [])
  const ProtectedStatic_string := Delegate("ProtectedStatic_string", Void, [P("stringArg", String)])
  const ProtectedStatic_int := Delegate("ProtectedStatic_int", Void, [P("intArg", Int32)])
  const ProtectedStatic_refint := Delegate("ProtectedStatic_refint", Void, [Ref("intArg", Int32)])
  const ProtectedStatic_outint := Delegate("ProtectedStatic_outint", Void, [Out("intArg", Int32)])
  const ProtectedStatic_inoutint := Delegate("ProtectedStatic_inoutint", Void, [P("intArgIn", Int32), Out("intArgOut", Int32)])
  const ProtectedStatic_inrefint := Delegate("ProtectedStatic_inrefint", Void, [P("intArgIn", Int32), Ref("intArgOut", Int32)])
  const PrivateStatic := Delegate("PrivateStatic", String, [])
  const PrivateStatic_int := Delegate("PrivateStatic_int", String, [P("count", Int32)])
  const PrivateInstance := Delegate("PrivateInstance", Void, [])
  const PrivateInstance_int := Delegate("PrivateInstance_int", Void, [P("intArg", Int32)])
  const ProtectedInstance := Delegate("ProtectedInstance", String, [])
  const ProtectedInstance_int := Delegate("ProtectedInstance_int", String, [P("intArg", Int32)])

  /** A class used where a delegate type is expected. */
  const NotADelegate := ShapeType("TestClass", false, None)

  lemma NonDelegateShapeRejected()
    ensures GetMethodInfoOn(Some(TestClass), NotADelegate, true)
         == Err(Exn(ArgumentException, "TestClass" + " is not a delegate type", None))
  {
  }

  /** `System.Delegate` itself: a delegate type, but one without an `Invoke` method. */
  const BareDelegate := ShapeType("Delegate", true, None)

  /** A delegate type without `Invoke` passes the delegate test and then fails reading the missing method's parameters. */
  lemma BareDelegateRejected()
    ensures GetMethodInfoOn(Some(TestClass), BareDelegate, true) == Err(Exn(NullReferenceException, NullReferenceMessage, None))
  {
  }

  lemma NullDeclaringTypeRejected()
    ensures GetMethodInfoOn(None, PrivateStatic, true) == Err(Exn(NullReferenceException, NullReferenceMessage, None))
  {
  }

  // Facts about the table, one lookup each.

  lemma PrivateStaticFirstStatic()
    ensures IsFirstMatch(TestClassMethods, 5, true, PrivateStatic.invoke.value, "PrivateStatic", false)
  {
    NoneMatchBelow(5, true, PrivateStatic.invoke.value, "PrivateStatic", false);
  }

  lemma PrivateStaticNoInstance()
    ensures NoMatch(TestClassMethods, false, PrivateStatic.invoke.value, "PrivateStatic", false)
  {
    NoneMatchBelow(19, false, PrivateStatic.invoke.value, "PrivateStatic", false);
  }

  lemma ProtectedStringFirstExact()
    ensures IsFirstMatch(TestClassMethods, 1, true, ProtectedStatic_string.invoke.value, "ProtectedStatic", false)
  {
    NoneMatchBelow(1, true, ProtectedStatic_string.invoke.value, "ProtectedStatic", false);
  }

  lemma ProtectedStringLowerCaseNoExact()
    ensures NoMatch(TestClassMethods, true, ProtectedStatic_string.invoke.value, "protectedstatic", false)
  {
    NoneMatchBelow(19, true, ProtectedStatic_string.invoke.value, "protectedstatic", false);
  }

  lemma ProtectedStringLowerCaseFirstIgnoringCase()
    ensures IsFirstMatch(TestClassMethods, 1, true, ProtectedStatic_string.invoke.value, "protectedstatic", true)
  {
    NoneMatchBelow(1, true, ProtectedStatic_string.invoke.value, "protectedstatic", true);
  }

  lemma ProtectedIntNoMatch()
    ensures NoMatch(TestClassMethods, true, ProtectedStatic_int.invoke.value, "ProtectedStatic", false)
  {
    NoneMatchBelow(19, true, ProtectedStatic_int.invoke.value, "ProtectedStatic", false);
  }

  lemma ProtectedOutIntFirstExact()
    ensures IsFirstMatch(TestClassMethods, 2, true, ProtectedStatic_outint.invoke.value, "ProtectedStatic", false)
  {
    NoneMatchBelow(2, true, ProtectedStatic_outint.invoke.value, "ProtectedStatic", false);
  }

  lemma ProtectedRefIntFirstExact()
    ensures IsFirstMatch(TestClassMethods, 2, true, ProtectedStatic_refint.invoke.value, "ProtectedStatic", false)
  {
    NoneMatchBelow(2, true, ProtectedStatic_refint.invoke.value, "ProtectedStatic", false);
  }

  lemma ProtectedInRefIntFirstExact()
    ensures IsFirstMatch(TestClassMethods, 3, true, ProtectedStatic_inrefint.invoke.value, "ProtectedStatic", false)
  {
    NoneMatchBelow(3, true, ProtectedStatic_inrefint.invoke.value, "ProtectedStatic", false);
  }

  lemma ProtectedInOutIntFirstExact()
    ensures IsFirstMatch(TestClassMethods, 3, true, ProtectedStatic_inoutint.invoke.value, "ProtectedStatic", false)
  {
    NoneMatchBelow(3, true, ProtectedStatic_inoutint.invoke.value, "ProtectedStatic", false);
  }

  lemma PrivateInstanceFirstExact()
    ensures IsFirstMatch(TestClassMethods, 9, false, PrivateInstance.invoke.value, "PrivateInstance", false)
  {
    NoneMatchBelow(9, false, PrivateInstance.invoke.value, "PrivateInstance", false);
  }

  lemma PrivateInstanceIntLowerCaseNoExact()
    ensures NoMatch(TestClassMethods, false, PrivateInstance_int.invoke.value, "privateinstance", false)
  {
    NoneMatchBelow(19, false, PrivateInstance_int.invoke.value, "privateinstance", false);
  }

  lemma PrivateInstanceIntLowerCaseFirstIgnoringCase()
    ensures IsFirstMatch(TestClassMethods, 10, false, PrivateInstance_int.invoke.value, "privateinstance", true)
  {
    NoneMatchBelow(10, false, PrivateInstance_int.invoke.value, "privateinstance", true);
  }

  lemma ProtectedInstanceFirstExact()
    ensures IsFirstMatch(TestClassMethods, 11, false, ProtectedInstance.invoke.value, "ProtectedInstance", false)
  {
    NoneMatchBelow(11, false, ProtectedInstance.invoke.value, "ProtectedInstance", false);
  }

  lemma PrivateStaticIntFirstExact()
    ensures IsFirstMatch(TestClassMethods, 6, true, PrivateStatic_int.invoke.value, "PrivateStatic", false)
  {
    NoneMatchBelow(6, true, PrivateStatic_int.invoke.value, "PrivateStatic", false);
  }

  lemma PrivateStaticIntLowerCaseNoExact()
    ensures NoMatch(TestClassMethods, true, PrivateStatic_int.invoke.value, "privatestatic", false)
  {
    NoneMatchBelow(19, true, PrivateStatic_int.invoke.value, "privatestatic", false);
  }

  lemma PrivateStaticIntLowerCaseFirstIgnoringCase()
    ensures IsFirstMatch(TestClassMethods, 6, true, PrivateStatic_int.invoke.value, "privatestatic", true)
  {
    NoneMatchBelow(6, true, PrivateStatic_int.invoke.value, "privatestatic", true);
  }

  lemma ProtectedInstanceIntFirstExact()
    ensures IsFirstMatch(TestClassMethods, 12, false, ProtectedInstance_int.invoke.value, "ProtectedInstance", false)
  {
    NoneMatchBelow(12, false, ProtectedInstance_int.invoke.value, "ProtectedInstance", false);
  }

  lemma ProtectedInstanceIntLowerCaseNoExact()
    ensures NoMatch(TestClassMethods, false, ProtectedInstance_int.invoke.value, "protectedinstance", false)
  {
    NoneMatchBelow(19, false, ProtectedInstance_int.invoke.value, "protectedinstance", false);
  }

  lemma ProtectedInstanceIntLowerCaseFirstIgnoringCase()
    ensures IsFirstMatch(TestClassMethods, 12, false, ProtectedInstance_int.invoke.value, "protectedinstance", true)
  {
    NoneMatchBelow(12, false, ProtectedInstance_int.invoke.value, "protectedinstance", true);
  }

  lemma ProtectedInstanceIntNoStatic()
    ensures NoMatch(TestClassMethods, true, ProtectedInstance_int.invoke.value, "ProtectedInstance", false)
  {
    NoneMatchBelow(19, true, ProtectedInstance_int.invoke.value, "ProtectedInstance", false);
  }

  lemma ProtectedInstanceIntLowerCaseNoStatic()
    ensures NoMatch(TestClassMethods, true, ProtectedInstance_int.invoke.value, "protectedinstance", false)
  {
    NoneMatchBelow(19, true, ProtectedInstance_int.invoke.value, "protectedinstance", false);
  }

  lemma ProtectedStaticFirst()
    ensures IsFirstMatch(TestClassMethods, 0, true, ProtectedStatic.invoke.value, "ProtectedStatic", false)
  {
    NoneMatchBelow(0, true, ProtectedStatic.invoke.value, "ProtectedStatic", false);
  }

  lemma PrivateStaticIntKinds()
    ensures KindsAgree(PrivateStatic_int.invoke.value.params, TestClass.methods[6].sig.params)
  {
    assert TestClass.methods[6] == M6;
  }

  lemma RefAgainstRefKinds()
    ensures KindsAgree(ProtectedStatic_refint.invoke.value.params, TestClass.methods[2].sig.params)
  {
    assert TestClass.methods[2] == M2;
  }

  lemma OutAgainstOutKinds()
    ensures KindsAgree(ProtectedStatic_inoutint.invoke.value.params, TestClass.methods[3].sig.params)
  {
    assert TestClass.methods[3] == M3;
  }

  lemma ProtectedInstanceIntKinds()
    ensures KindsAgree(ProtectedInstance_int.invoke.value.params, TestClass.methods[12].sig.params)
  {
    assert TestClass.methods[12] == M12;
  }

  lemma OutAgainstRefKinds()
    ensures KindMismatchAt(ProtectedStatic_outint.invoke.value.params, TestClass.methods[2].sig.params, 0)
  {
    assert TestClass.methods[2] == M2;
  }

  lemma RefAgainstOutKinds()
    ensures KindMismatchAt(ProtectedStatic_inrefint.invoke.value.params, TestClass.methods[3].sig.params, 1)
    ensures !KindMismatchAt(ProtectedStatic_inrefint.invoke.value.params, TestClass.methods[3].sig.params, 0)
  {
    assert TestClass.methods[3] == M3;
  }

  lemma PrivateInstanceIntKinds()
    ensures KindsAgree(PrivateInstance_int.invoke.value.params, TestClass.methods[10].sig.params)
  {
    assert TestClass.methods[10] == M10;
  }

  // The test scenarios.

  /** Inferred names: the delegate `PrivateStatic` finds the parameterless static `PrivateStatic`. */
  lemma PrivateStaticByInferredName()
    ensures GetMethodInfoOf(TestClass, PrivateStatic, true) == Ok(M5)
    ensures GetMethodInfoOn(Some(TestClass), PrivateStatic, true) == Ok(M5)
  {
    PrivateStaticFirstStatic();
    ResolvesEarliestExact(TestClass, PrivateStatic, Some("PrivateStatic"), false, true, 5);
  }

  /** The same shape looked up as an instance method finds nothing: the static flag is part of the filter. */
  lemma PrivateStaticNotFoundAsInstance()
    ensures GetMethodInfoOn(Some(TestClass), PrivateStatic, false) == Err(NoMatchingMethodError)
  {
    PrivateStaticNoInstance();
    NotFoundIffNoMatch(TestClass, PrivateStatic, Some("PrivateStatic"), false, false);
  }

  /** An exact name finds the overload; the lower-case name fails case-sensitively and succeeds case-insensitively. */
  lemma ProtectedStaticCaseSensitivity()
    ensures GetMethodInfoNamed(Some(TestClass), ProtectedStatic_string, Some("ProtectedStatic"), true, false) == Ok(M1)
    ensures GetMethodInfoNamed(Some(TestClass), ProtectedStatic_string, Some("protectedstatic"), true, false) == Err(NoMatchingMethodError)
    ensures GetMethodInfoNamed(Some(TestClass), ProtectedStatic_string, Some("protectedstatic"), true, true) == Ok(M1)
  {
    ProtectedStringFirstExact();
    ResolvesEarliestExact(TestClass, ProtectedStatic_string, Some("ProtectedStatic"), false, true, 1);
    ProtectedStringLowerCaseNoExact();
    NotFoundIffNoMatch(TestClass, ProtectedStatic_string, Some("protectedstatic"), false, true);
    ProtectedStringLowerCaseFirstIgnoringCase();
    ResolvesEarliestIgnoringCase(TestClass, ProtectedStatic_string, Some("protectedstatic"), true, 1);
  }

  /** A by-value `int` shape does not match the `ref int` overload. */
  lemma ByValueDoesNotMatchRef()
    ensures GetMethodInfoNamed(Some(TestClass), ProtectedStatic_int, Some("ProtectedStatic"), true, false) == Err(NoMatchingMethodError)
  {
    ProtectedIntNoMatch();
    NotFoundIffNoMatch(TestClass, ProtectedStatic_int, Some("ProtectedStatic"), false, true);
  }

  /** The error the ref/out check raises for the `ref int` overload against the `out int` shape. */
  lemma OutAgainstRefMessage()
    ensures KindMismatchError(TestClass.methods[2].sig.params[0], ProtectedStatic_outint.invoke.value.params[0], 0)
         == Exn(MissingMethodException,
                "Target method parameter " + "intArg" + " at position " + "0" + " is " + "ref"
                + " but delegate method parameter " + "intArg" + " at position " + "0" + " is " + "out", None)
  {
    assert TestClass.methods[2] == M2;
    assert NatToString(0) == "0";
  }

  /**
   * An `out int` shape passes the type filter against `ref int` (both are
   * `Int32&`) and is then rejected by the ref/out check at position 0.
   */
  lemma OutShapeRejectedByRefTarget()
    ensures GetMethodInfoNamed(Some(TestClass), ProtectedStatic_outint, Some("ProtectedStatic"), true, false)
         == Err(KindMismatchError(TestClass.methods[2].sig.params[0], ProtectedStatic_outint.invoke.value.params[0], 0))
  {
    ProtectedOutIntFirstExact();
    OutAgainstRefKinds();
    RejectsKindMismatch(TestClass, ProtectedStatic_outint, Some("ProtectedStatic"), false, true, 2, 0);
  }

  lemma RefShapeMatchesRefTarget()
    ensures GetMethodInfoNamed(Some(TestClass), ProtectedStatic_refint, Some("ProtectedStatic"), true, true) == Ok(TestClass.methods[2])
  {
    ProtectedRefIntFirstExact();
    RefAgainstRefKinds();
    ResolvesEarliestExact(TestClass, ProtectedStatic_refint, Some("ProtectedStatic"), true, true, 2);
  }

  /** The error the ref/out check raises for the `out` overload against the `ref` shape. */
  lemma RefAgainstOutMessage()
    ensures KindMismatchError(TestClass.methods[3].sig.params[1], ProtectedStatic_inrefint.invoke.value.params[1], 1)
         == Exn(MissingMethodException,
                "Target method parameter " + "intArgOut" + " at position " + "1" + " is " + "out"
                + " but delegate method parameter " + "intArgOut" + " at position " + "1" + " is " + "ref", None)
  {
    assert TestClass.methods[3] == M3;
    assert NatToString(1) == "1";
  }

  /** A `ref` shape against the `out` overload is rejected at position 1, after position 0 agreed. */
  lemma RefShapeRejectedByOutTarget()
    ensures GetMethodInfoNamed(Some(TestClass), ProtectedStatic_inrefint, Some("ProtectedStatic"), true, false)
         == Err(KindMismatchError(TestClass.methods[3].sig.params[1], ProtectedStatic_inrefint.invoke.value.params[1], 1))
  {
    ProtectedInRefIntFirstExact();
    RefAgainstOutKinds();
    RejectsKindMismatch(TestClass, ProtectedStatic_inrefint, Some("ProtectedStatic"), false, true, 3, 1);
  }

  lemma OutShapeMatchesOutTarget()
    ensures GetMethodInfoNamed(Some(TestClass), ProtectedStatic_inoutint, Some("ProtectedStatic"), true, false) == Ok(TestClass.methods[3])
  {
    ProtectedInOutIntFirstExact();
    OutAgainstOutKinds();
    ResolvesEarliestExact(TestClass, ProtectedStatic_inoutint, Some("ProtectedStatic"), false, true, 3);
  }

  /** `PrivateInstance` is found ahead of the inherited `Finalize`, which has the same shape. */
  lemma PrivateInstanceByInferredName()
    ensures GetMethodInfoOn(Some(TestClass), PrivateInstance, false) == Ok(M9)
  {
    PrivateInstanceFirstExact();
    ResolvesEarliestExact(TestClass, PrivateInstance, Some("PrivateInstance"), false, false, 9);
  }

  lemma PrivateInstanceWrongCaseRejected()
    ensures GetMethodInfoNamed(Some(TestClass), PrivateInstance_int, Some("privateinstance"), false, false) == Err(NoMatchingMethodError)
  {
    PrivateInstanceIntLowerCaseNoExact();
    NotFoundIffNoMatch(TestClass, PrivateInstance_int, Some("privateinstance"), false, false);
  }

  lemma PrivateInstanceIgnoringCase()
    ensures GetMethodInfoNamed(Some(TestClass), PrivateInstance_int, Some("privateinstance"), false, true) == Ok(TestClass.methods[10])
  {
    PrivateInstanceIntLowerCaseNoExact();
    PrivateInstanceIntLowerCaseFirstIgnoringCase();
    PrivateInstanceIntKinds();
    ResolvesEarliestIgnoringCase(TestClass, PrivateInstance_int, Some("privateinstance"), false, 10);
  }

  /** `PrivateStatic` with the `PrivateStatic_int` shape: the exact name finds it, the lower-case name only when case is ignored. */
  lemma PrivateStaticIntByExactName()
    ensures GetMethodInfoNamed(Some(TestClass), PrivateStatic_int, Some("PrivateStatic"), true, false) == Ok(TestClass.methods[6])
  {
    PrivateStaticIntFirstExact();
    PrivateStaticIntKinds();
    ResolvesEarliestExact(TestClass, PrivateStatic_int, Some("PrivateStatic"), false, true, 6);
  }

  lemma PrivateStaticIntWrongCaseRejected()
    ensures GetMethodInfoNamed(Some(TestClass), PrivateStatic_int, Some("privatestatic"), true, false) == Err(NoMatchingMethodError)
  {
    PrivateStaticIntLowerCaseNoExact();
    NotFoundIffNoMatch(TestClass, PrivateStatic_int, Some("privatestatic"), false, true);
  }

  lemma PrivateStaticIntIgnoringCase()
    ensures GetMethodInfoNamed(Some(TestClass), PrivateStatic_int, Some("privatestatic"), true, true) == Ok(TestClass.methods[6])
  {
    PrivateStaticIntLowerCaseNoExact();
    PrivateStaticIntLowerCaseFirstIgnoringCase();
    PrivateStaticIntKinds();
    ResolvesEarliestIgnoringCase(TestClass, PrivateStatic_int, Some("privatestatic"), true, 6);
  }

  /** `ProtectedInstance` with the `ProtectedInstance_int` shape: the exact name finds it, the lower-case name only when case is ignored. */
  lemma ProtectedInstanceIntByExactName()
    ensures GetMethodInfoNamed(Some(TestClass), ProtectedInstance_int, Some("ProtectedInstance"), false, false) == Ok(TestClass.methods[12])
  {
    ProtectedInstanceIntFirstExact();
    ProtectedInstanceIntKinds();
    ResolvesEarliestExact(TestClass, ProtectedInstance_int, Some("ProtectedInstance"), false, false, 12);
  }

  lemma ProtectedInstanceIntWrongCaseRejected()
    ensures GetMethodInfoNamed(Some(TestClass), ProtectedInstance_int, Some("protectedinstance"), false, false) == Err(NoMatchingMethodError)
  {
    ProtectedInstanceIntLowerCaseNoExact();
    NotFoundIffNoMatch(TestClass, ProtectedInstance_int, Some("protectedinstance"), false, false);
  }

  lemma ProtectedInstanceIntIgnoringCase()
    ensures GetMethodInfoNamed(Some(TestClass), ProtectedInstance_int, Some("protectedinstance"), false, true) == Ok(TestClass.methods[12])
  {
    ProtectedInstanceIntLowerCaseNoExact();
    ProtectedInstanceIntLowerCaseFirstIgnoringCase();
    ProtectedInstanceIntKinds();
    ResolvesEarliestIgnoringCase(TestClass, ProtectedInstance_int, Some("protectedinstance"), false, 12);
  }

  /**
   * The static caller overload looks for static methods only, so it misses the
   * instance method `ProtectedInstance(int)` whatever the case of the name:
   * even the correctly cased name fails.
   */
  lemma StaticCallerMissesInstanceMethod()
    ensures GetStaticCallerNamed<string>(Some(TestClass), ProtectedInstance_int, Some("ProtectedInstance"), false) == Err(NoMatchingMethodError)
    ensures GetStaticCallerNamed<string>(Some(TestClass), ProtectedInstance_int, Some("protectedinstance"), false) == Err(NoMatchingMethodError)
  {
    ProtectedInstanceIntNoStatic();
    NotFoundIffNoMatch(TestClass, ProtectedInstance_int, Some("ProtectedInstance"), false, true);
    ProtectedInstanceIntLowerCaseNoStatic();
    NotFoundIffNoMatch(TestClass, ProtectedInstance_int, Some("protectedinstance"), false, true);
  }

  /** A static caller binds no instance. */
  lemma StaticCallerBindsNoInstance()
    ensures GetStaticCallerOf<string>(TestClass, PrivateStatic) == Ok(BoundCallable(M5, None))
  {
    PrivateStaticByInferredName();
  }

  /** An instance caller closes over the instance it was given. */
  lemma InstanceCallerBindsInstance(instance: string)
    ensures GetInstanceCaller(Some(instance), Some(TestClass), ProtectedInstance) == Ok(BoundCallable(M11, Some(instance)))
  {
    ProtectedInstanceFirstExact();
    ResolvesEarliestExact(TestClass, ProtectedInstance, None, false, false, 11);
  }

  /** The inferred name `ProtectedStatic` finds the parameterless overload, the first of five sharing the name. */
  lemma ProtectedStaticByInferredName()
    ensures GetMethodInfoOf(TestClass, ProtectedStatic, true) == Ok(TestClass.methods[0])
    ensures GetMethodInfoOn(Some(TestClass), ProtectedStatic, true) == Ok(TestClass.methods[0])
  {
    ProtectedStaticFirst();
    ResolvesEarliestExact(TestClass, ProtectedStatic, Some("ProtectedStatic"), false, true, 0);
  }

  /** Both static caller overloads with inferred names bind `ProtectedStatic()` with no instance. */
  lemma ProtectedStaticCallersByInferredName()
    ensures GetStaticCallerOf<string>(TestClass, ProtectedStatic) == Ok(BoundCallable(TestClass.methods[0], None))
    ensures GetStaticCallerOn<string>(Some(TestClass), ProtectedStatic) == Ok(BoundCallable(TestClass.methods[0], None))
  {
    ProtectedStaticByInferredName();
  }

  /** The instance lookup with the inferred name `ProtectedInstance` finds `ProtectedInstance()`. */
  lemma ProtectedInstanceByInferredName()
    ensures GetMethodInfoOn(Some(TestClass), ProtectedInstance, false) == Ok(TestClass.methods[11])
  {
    ProtectedInstanceFirstExact();
    ResolvesEarliestExact(TestClass, ProtectedInstance, Some("ProtectedInstance"), false, false, 11);
  }

  // The `ref`/`out` cases through the static caller overload (which passes `ignoreCase` false).

  lemma CallerByValueDoesNotMatchRef()
    ensures GetStaticCallerNamed<string>(Some(TestClass), ProtectedStatic_int, Some("ProtectedStatic"), false) == Err(NoMatchingMethodError)
  {
    ByValueDoesNotMatchRef();
  }

  lemma CallerOutShapeRejectedByRefTarget()
    ensures GetStaticCallerNamed<string>(Some(TestClass), ProtectedStatic_outint, Some("ProtectedStatic"), false)
         == Err(KindMismatchError(TestClass.methods[2].sig.params[0], ProtectedStatic_outint.invoke.value.params[0], 0))
  {
    OutShapeRejectedByRefTarget();
  }

  lemma CallerRefShapeMatchesRefTarget()
    ensures GetStaticCallerNamed<string>(Some(TestClass), ProtectedStatic_refint, Some("ProtectedStatic"), false)
         == Ok(BoundCallable(TestClass.methods[2], None))
  {
    ProtectedRefIntFirstExact();
    RefAgainstRefKinds();
    ResolvesEarliestExact(TestClass, ProtectedStatic_refint, Some("ProtectedStatic"), false, true, 2);
  }

  lemma CallerRefShapeRejectedByOutTarget()
    ensures GetStaticCallerNamed<string>(Some(TestClass), ProtectedStatic_inrefint, Some("ProtectedStatic"), false)
         == Err(KindMismatchError(TestClass.methods[3].sig.params[1], ProtectedStatic_inrefint.invoke.value.params[1], 1))
  {
    RefShapeRejectedByOutTarget();
  }

  lemma CallerOutShapeMatchesOutTarget()
    ensures GetStaticCallerNamed<string>(Some(TestClass), ProtectedStatic_inoutint, Some("ProtectedStatic"), false)
         == Ok(BoundCallable(TestClass.methods[3], None))
  {
    OutShapeMatchesOutTarget();
  }
}

=== FILE: wrappers.dfy ===
/** Option and Result, the failure-carrying values every operation of the model returns. */
module Wrappers {

  /** A value that may be absent: the model's stand-in for a nullable reference. */
  datatype Option<+T> = None | Some(value: T) {

    /** The value, or `default` when absent (the `??` operator). */
    function GetOr(default: T): (r: T)
      ensures Some? ==> r == value
      ensures None? ==> r == default
    {
      match this
      case Some(v) => v
      case None => default
    }
  }

  /** Either a normal result or the exception an operation raised. */
  datatype Result<+R, +E> = Ok(value: R) | Err(error: E)
}
